=== FILE: README.md ===
# BookEasy site rules in Dafny

A model of the logic in the BookEasy site that is not rendering: a marketing
page for booking appointments, with a visual CMS editor. The site is written
in TypeScript and React. Every piece is modelled as immutable datatypes and
pure step functions. The clock, the pointer position and the scroll offset
are explicit parameters.

The modules are:

- `Strings` holds the JavaScript string primitives the code relies on. These
  are `trim` with JavaScript's whitespace set, `split`/`join` on one
  character, `String(n)`, `padStart`, ASCII `toLowerCase`, `includes` and
  string `<`.
- `RateLimiter` is the fixed-window request limiter `rateLimit`. It is a step
  over the process-local map of per-client counters. It also holds the
  client-key rule `getClientIp`.
- `JsonTree` is the JSON-like tree the editor deep-clones. It holds the
  path walk and assignment of `handleEdit`, with JavaScript's outcomes for
  missing keys, array indices and array growth.
- `CmsContent` is the typed `CMSContent` schema, its encoding as a tree and
  the decoding back, and the `defaultContent` instance.
- `Editor` is `handleEdit` with its `hero.headline` special case. It also
  covers every field path the editor's sections issue, the font list of the
  styling panel and the drag-to-close state machine of that panel. The
  tree is a value, so the deep clone `handleEdit` makes first is implicit:
  an edit never alters the content it started from.
- `Booking` covers the booking form:
  - the `generateTimeSlots` table, as a method with loops and as a reference function;
  - the 24-hour value and the 12-hour label of each slot;
  - the name and email sanitisers;
  - the today-only slot filter;
  - the message length warning.
- `FeatureGrid` covers the features section:
  - `hexToRgba` built on a faithful `parseInt(…, 16)`;
  - the index and title rules for choosing icons;
  - the placement of the highlighted grid squares.
- `Navbar` is the hide-on-scroll header.
- `Reveal` is the `InView` reveal-on-scroll wrapper, with its `once` and
  `delayMs` props.
- `BrandEditor` is the click-to-edit brand heading.

## Model

| member | source | states |
|---|---|---|
| RateLimiter.RateLimit | lib/rate-limit.ts:13-29 | With no counter, or with an expired one (`expiresAt <= now`), the call opens a new window with count 1 and reports `max-1` remaining. A full live window is rejected with 0 remaining, and the map is left exactly as it was. Otherwise the count rises by one within the same window. Only the caller's entry may change. |
| RateLimiter.RateLimitKeepsValid | lib/rate-limit.ts:17-28 | For `max >= 1`, every stored count stays in `1..max` after any call. Remaining is always in `0..max-1`, and it is 0 on a rejection. |
| RateLimiter.ClientsIndependent | lib/rate-limit.ts:11-29 | A call for one client never changes what a different client is told next. |
| RateLimiter.Repeat | lib/rate-limit.ts:13-29 | `n` repeated calls produce exactly `n` decisions. |
| RateLimiter.RepeatInLiveWindow | lib/rate-limit.ts:22-28 | Inside a live window, further calls are allowed while the count is below `max`, with remaining counting down. From then on every call is rejected, and all report the same reset time. |
| RateLimiter.FreshClientBurst | lib/rate-limit.ts:13-29 | For a client with no live window, calls 1..max at one instant are allowed with remaining `max-1` down to 0. Every later call in that window is rejected. |
| RateLimiter.CallAfterResetStartsNewWindow | lib/rate-limit.ts:17-19 | Once the reported reset time has been reached, the next call opens a fresh window with `max-1` remaining. |
| RateLimiter.BookingPolicyScenario | lib/rate-limit.ts:13-29 | Example policy of 10 minutes and 5 requests for "1.2.3.4". Calls 1-5 report remaining 4, 3, 2, 1, 0. Call 6 is rejected. A call 600001 ms later is allowed with 4 remaining. |
| RateLimiter.GetClientIp | lib/rate-limit.ts:31-41 | The key is never empty. A key other than "unknown" holds no comma and has no whitespace at either end. |
| RateLimiter.ForwardedHeader | lib/rate-limit.ts:33 | `x-forwarded-for` is used when present and non-empty. Otherwise `x-real-ip` is used when present, and there is no header when it is absent. |
| RateLimiter.GetClientIpIsFirstField | lib/rate-limit.ts:33-40 | The header used is `x-forwarded-for` when it is present and non-empty, and `x-real-ip` otherwise. The key is that header's text before its first comma, trimmed. If it trims to nothing, or no header is usable, the key is "unknown". |
| RateLimiter.GetClientIpForwardedExample | lib/rate-limit.ts:35-37 | A forwarded list "9.9.9.9, 10.0.0.1" gives the client "9.9.9.9". |
| RateLimiter.GetClientIpNoHeaderExample | lib/rate-limit.ts:39-40 | With no proxy header, every client shares the key "unknown". |
| Strings.Trim | lib/rate-limit.ts:36 | `trim` keeps a contiguous slice of the input. It removes only whitespace on either side and leaves no whitespace at either end. |
| Strings.TrimEmptyIffBlank | app/admin/editor/page.tsx:151 | A string trims to "" exactly when it consists only of whitespace. |
| Strings.Split | app/admin/editor/page.tsx:132 | A split always has at least one field, and no field contains the separator. |
| Strings.JoinSplit | app/admin/editor/page.tsx:132 | Joining the fields of a split with the same separator gives the original string back. |
| Strings.SplitJoin | app/admin/editor/page.tsx:132 | Splitting a join of separator-free fields gives the fields back. |
| Strings.SplitFirstField | lib/rate-limit.ts:36 | The first field of a split is the text before the first separator. |
| Strings.NatToDecimal | app/page.tsx:49 | `n.toString()` is a non-empty string of digits with no leading zero. It has one digit exactly when `n < 10`. |
| Strings.DecimalRoundTrip | app/page.tsx:532 | `Number` applied to the printed form of `n` gives `n` back. |
| Strings.PadStart | app/page.tsx:49 | `padStart` reaches the requested width, keeps the string as its tail and fills the front with the fill character. |
| Strings.TwoDigits | app/page.tsx:49 | A number below 100, padded to two with "0", is its tens digit followed by its units digit. |
| Strings.Lower | components/ui/features-section-demo-1.tsx:274 | Lower-casing keeps the length and maps each character on its own. |
| JsonTree.Assign | app/admin/editor/page.tsx:154-158 | Assigning on a string or null throws. Otherwise the key then holds the value. On an array, a key that is not an index leaves the serialised tree unchanged. An index is a numeral up to 2^32 - 2. |
| JsonTree.ArrayIndexLimit | app/admin/editor/page.tsx:154-158 | On an array, the numeral of any n up to 2^32 - 2 stores the value at position n. From "4294967295" on, the key is a plain property that JSON drops, so the array is unchanged. |
| JsonTree.SetPath | app/admin/editor/page.tsx:132-158 | Only an object or an array can be edited, and the edited root keeps its kind. A one-key edit is the assignment itself. |
| JsonTree.SetPathSucceedsIff | app/admin/editor/page.tsx:132-158 | The edit succeeds exactly when every key but the last leads to an existing container. |
| JsonTree.GetAfterSet | app/admin/editor/page.tsx:136-158 | When the last key lands, reading the edited path back yields the stored value. |
| JsonTree.SetPathFrame | app/admin/editor/page.tsx:133-158 | Every existing path that branches off the edited one reads the same value after the edit. |
| JsonTree.ChildUnchangedElsewhere | app/admin/editor/page.tsx:133-158 | A top-level child in a different slot from the edited one is unchanged. |
| CmsContent.ContentRoundTrip | lib/cms-content.ts:2-33 | Decoding the JSON tree of any content of the schema gives back the same content. |
| CmsContent.HeroRoundTrip | lib/cms-content.ts:3-9 | The hero section decodes back from its encoding. |
| CmsContent.FeaturesRoundTrip | lib/cms-content.ts:10-17 | The features section, cards included, decodes back from its encoding. |
| CmsContent.SmallSectionsRoundTrip | lib/cms-content.ts:18-32 | The booking form, footer and theme sections decode back from their encodings. |
| CmsContent.DefaultHeadline | lib/cms-content.ts:37 | The default headline has four lines, and the third is "APPOINTMENT". |
| CmsContent.DefaultCardTitlesDistinct | lib/cms-content.ts:46-79 | The eight default cards have pairwise different titles, which the features grid uses as React keys. |
| Editor.StoredValue | app/admin/editor/page.tsx:147-152 | Text for exactly the field `hero.headline` is stored as the list of its non-blank lines, in their order. Every other field stores the value as given. |
| Editor.HandleEdit | app/admin/editor/page.tsx:129-161 | With no content loaded, the edit does nothing. A successful edit always leaves content in place. |
| Editor.HandleEditReadsBack | app/admin/editor/page.tsx:132-160 | After an edit whose last key lands, the dotted path reads back the stored value. Every other existing path is unchanged. |
| Editor.NonBlank | app/admin/editor/page.tsx:151 | The filter keeps no blank line, never grows the list, and keeps a list with no blank line as it is. |
| Editor.FilterMembers | app/admin/editor/page.tsx:151 | A line is in the filtered list exactly when it is in the input and the filter accepts it. |
| Editor.FilterAppend | app/admin/editor/page.tsx:151 | Filtering a concatenation filters each part and concatenates the results, so the kept lines stay in their order. |
| Editor.NonBlankMembers | app/admin/editor/page.tsx:151 | A line survives exactly when it is in the input and does not trim to nothing. |
| Editor.NonBlankAppend | app/admin/editor/page.tsx:151 | The non-blank lines of `a + b` are those of `a` followed by those of `b`. |
| Editor.NonBlankOne | app/admin/editor/page.tsx:151 | A single line is kept exactly when it is not blank. |
| Editor.HeadlineLines | app/admin/editor/page.tsx:150-151 | The headline lines are exactly the non-blank pieces of the text split at line breaks. None holds a line break or is blank. |
| Editor.HeadlineRoundTrip | app/admin/editor/page.tsx:150-151 | Non-blank headline lines without line breaks, joined with "\n", are split back into the same lines. |
| Editor.FieldPathSplits | components/ui/features-section-demo-1.tsx:48 | Every dotted field string an editable section issues splits back into its keys. |
| Editor.HeadlineOnlyPath | app/admin/editor/page.tsx:150 | Among the fields `handleEdit` accepts, only the whole-headline field has the path `hero.headline`. No section issues that field, so the special case never fires for a field a section issues. |
| Editor.IssuedFieldsStoreText | app/admin/editor/page.tsx:147-152 | Every field a section issues, including the per-word `hero.headline.i` of components/sections/hero-section.tsx:77, stores its text unchanged. |
| Editor.TopLevelEdit | lib/cms-content.ts:2-33 | Every field the editor issues names an existing slot of the schema. Storing text there gives the tree of the content with that one field changed. |
| Editor.EditorEditKeepsSchema | app/admin/editor/page.tsx:129-161 | An edit issued by the editor on content of the schema succeeds. The result still decodes as content of the schema, equal to the typed edit. |
| Editor.HeroEdit | components/sections/hero-section.tsx:77-140 | A hero field edit yields the encoding of the edited hero. This covers the title, the description, the CTA and one headline word, plus the whole-headline path that `handleEdit` accepts but no section issues. |
| Editor.CardsEdit | components/ui/features-section-demo-1.tsx:48-60 | Editing `cards.i.title` or `cards.i.description` replaces only that field of card `i`. |
| Editor.FeaturesEdit | components/sections/features-section.tsx:25-37 | A features field edit yields the encoding of the edited features section. |
| Editor.BookingFormEdit | components/sections/booking-section.tsx:26-38 | A booking form field edit yields the encoding of the edited booking section. |
| Editor.FooterEdit | components/sections/footer-section.tsx:20-94 | A footer field edit yields the encoding of the edited footer. |
| Editor.ThemeEdit | app/admin/editor/page.tsx:335-400 | A theme field edit yields the encoding of the edited theme. |
| Editor.DefaultFontsOffered | app/admin/editor/page.tsx:38-42 | The default heading and body fonts are among the fonts the panel offers. |
| Editor.PanelStep | app/admin/editor/page.tsx:61-86 | A press records the pointer as start and current. A move changes current only while dragging and strictly below the start. A release outside a drag does nothing. Otherwise the release closes the panel iff the drag went more than 100 px down, and it always resets. |
| Editor.PanelRunKeepsInv | app/admin/editor/page.tsx:300 | Over any event sequence, current stays at or below start while dragging, and both are 0 otherwise. The rendered offset is therefore never negative and equals the drag distance. |
| Editor.PanelOffset | app/admin/editor/page.tsx:300 | The offset is never negative and is 0 outside a drag. Under the drag invariant it is exactly the distance dragged down. |
| Editor.InitialDragInv | app/admin/editor/page.tsx:52-55 | The first render satisfies the drag invariant, with the panel closed. |
| Booking.GenerateTimeSlots | app/page.tsx:45-57 | The loops produce 18 slots, hours 9..17 by minutes 0 and 30, with slot `i` at `9 + i/2` and `30*(i%2)`. |
| Booking.SlotValue | app/page.tsx:49 | For hour and minute below 100, the value has five characters with ":" in the middle. The two-digit numerals on either side read back as the hour and the minute. |
| Booking.SlotLabel | app/page.tsx:50-52 | The label ends in " PM" exactly when the hour is at least 12, and in " AM" otherwise. |
| Booking.TimeSlotsOrdered | app/page.tsx:47-49 | The slot values are pairwise distinct, and their string order is their table order. |
| Booking.ValueOrderIsTimeOrder | app/page.tsx:49 | For times of day, comparing "HH:MM" values as strings is comparing the times. |
| Booking.ValueRoundTrip | app/page.tsx:49 | Splitting a value at ":" and reading both numbers gives the hour and minute back. |
| Booking.TwelveHourClock | app/page.tsx:50-51 | The display hour is in 1..12. The period is PM iff the hour is at least 12. Display hour and period determine the 24-hour hour. |
| Booking.LabelRoundTrip | app/page.tsx:52 | Each label reads back as its hour and minute. Its minute has two digits and its hour is unpadded. |
| Booking.SampleLabels | app/page.tsx:50-52 | 12:00 is labelled "12:00 PM", 9:30 "9:30 AM" and 17:30 "5:30 PM". |
| Booking.TodayFilter | app/page.tsx:526-537 | On today's date the offered slots are exactly those starting later than now, and they form the tail of the table. On any other date, or with none picked, all 18 slots are offered. |
| Booking.SlotStartMs | app/page.tsx:531-533 | A slot has a start exactly when its value reads as two numbers. The start is a non-negative whole number of minutes, in milliseconds. |
| Booking.LaterSlots | app/page.tsx:530-535 | A slot is kept exactly when it is in the table and starts later than now. Nothing is added. |
| Booking.AvailableSlots | app/page.tsx:526-537 | On another day, or with none picked, the table is offered as it is. On today's date a slot is offered exactly when it starts later than now. |
| Booking.LaterSlotsSuffix | app/page.tsx:531-536 | Filtering slots with strictly increasing starts keeps a suffix, and the slots it drops are exactly those that do not start later. |
| Booking.WithoutFixedIff | app/page.tsx:385 | Removing characters leaves a string unchanged exactly when it holds none of them. |
| Booking.Sanitizer | app/page.tsx:384-386 | Remove-then-cut yields a bounded prefix of the kept characters. It holds no removed character, and applying it again changes nothing. It leaves exactly the clean short strings as they are. |
| Booking.SanitizersClean | app/page.tsx:384-425 | The name result (lines 384-386) has no digit and at most 100 characters. The email result (lines 423-425) has no whitespace and at most 255 characters. Both are idempotent. |
| Booking.SanitizeName | app/page.tsx:384-386 | The name holds no digit and at most 100 characters. |
| Booking.SanitizeEmail | app/page.tsx:423-425 | The email holds no whitespace and at most 255 characters. |
| Booking.NearLimitIff | app/page.tsx:598-600 | The counter warns exactly above 900 characters. An absent message never triggers it. |
| Booking.IsNearLimit | app/page.tsx:598-600 | `currentLength > 1000 * 0.9` holds exactly when the length exceeds 900. |
| FeatureGrid.HexPrefix | components/ui/features-section-demo-1.tsx:161 | `parseInt` reads the longest run of hexadecimal digits at the front. |
| FeatureGrid.ParseIntHex | components/ui/features-section-demo-1.tsx:161-163 | Parsing empty text gives NaN. |
| FeatureGrid.ParseDigitRun | components/ui/features-section-demo-1.tsx:161-163 | A non-empty run of hexadecimal digits parses to its base-16 value. |
| FeatureGrid.RgbaOf | components/ui/features-section-demo-1.tsx:160-165 | Whatever the components are, `hexToRgba` prints an `rgba(` call whose last argument is the alpha. |
| FeatureGrid.WellFormedDecodes | components/ui/features-section-demo-1.tsx:160-163 | For a `#rrggbb` colour the three components are the bytes of characters 1-2, 3-4 and 5-6. |
| FeatureGrid.RgbaShape | components/ui/features-section-demo-1.tsx:164 | A well-formed colour prints as `rgba(r, g, b, alpha)` with the decimal bytes and ", " between the parts. The same text comes from both copies of the helper (lines 202-207). |
| FeatureGrid.ShortColourHasNoBlue | components/ui/features-section-demo-1.tsx:163 | A colour of five characters or fewer has no blue digits, so blue prints as NaN. |
| FeatureGrid.ColourRoundTrip | components/ui/features-section-demo-1.tsx:160-163 | Writing three bytes as `#rrggbb` and decoding gives the bytes back. |
| FeatureGrid.DefaultColours | lib/cms-content.ts:91-92 | The default colours are well-formed and decode to (139, 92, 246) and (124, 58, 237). |
| FeatureGrid.JsRem8 | components/ui/features-section-demo-1.tsx:253 | JavaScript's `% 8` agrees with the mathematical remainder for non-negative indices. For negative ones it lies in -7..0. |
| FeatureGrid.IconByIndexResidues | components/ui/features-section-demo-1.tsx:252-271 | For non-negative indices the icon depends only on `index mod 8`. The eight residues give eight different icons, and 7 falls to the default clock. The size passes through. |
| FeatureGrid.NegativeIndexIcon | components/ui/features-section-demo-1.tsx:253-269 | A negative index gets the default icon unless it is a multiple of 8. |
| FeatureGrid.IconByIndexRaw | components/ui/features-section-demo-1.tsx:252-271 | The size passes through. A non-negative index takes the default clock exactly at residue 7. A negative index takes the calendar exactly at multiples of 8. |
| FeatureGrid.IconForFeature | components/ui/features-section-demo-1.tsx:273-292 | Every feature icon is drawn at size 200. |
| FeatureGrid.IconForFeaturePriority | components/ui/features-section-demo-1.tsx:273-292 | The phrases are tried in a fixed order against the lower-cased title. The first match picks the icon, and "24/7 availability" as the first match gives the clock. Each of the first three icons appears exactly when its phrase is the first match. A title with none of the phrases falls back to the index rule. The size is always 200. |
| FeatureGrid.IndexIconFallback | components/ui/features-section-demo-1.tsx:290-291 | A title lacking some character of each phrase gets the index icon. |
| FeatureGrid.MissingCharNotContained | components/ui/features-section-demo-1.tsx:277-286 | A title cannot contain a phrase if it lacks one of the phrase's characters. |
| FeatureGrid.SquarePlacement | components/ui/features-section-demo-1.tsx:239-242 | Square `(sx, sy)` is drawn at `(sx*w, sy*h)` with size `(w+1)x(h+1)`. Its square is recovered from its corner, so distinct squares never share a rectangle. |
| FeatureGrid.SquareRect | components/ui/features-section-demo-1.tsx:239-242 | Each rectangle is one unit wider and taller than its cell, so it reaches one unit past the cell's far edges. |
| FeatureGrid.GridRects | components/ui/features-section-demo-1.tsx:151-157 | One rectangle per pattern square, five for the default diagonal. Each is one unit larger than `size ?? 20` on both sides. |
| FeatureGrid.DefaultGrid | components/ui/features-section-demo-1.tsx:151-157 | The default grid highlights five 21-unit squares on a diagonal, starting at (140, 20). |
| Navbar.OnScroll | examples/components/navbar.tsx:17-27 | Scrolling up, or being within 10 px of the top, shows the header. It hides only on a downward scroll past 100. The last offset is always remembered. |
| Navbar.HideIff | examples/components/navbar.tsx:22-23 | A shown header hides exactly on a downward scroll past 100. |
| Navbar.DeadBand | examples/components/navbar.tsx:20-24 | A downward or unchanged scroll between 10 and 100 leaves the visibility as it was. |
| Navbar.ScrollsKeepInv | examples/components/navbar.tsx:20-26 | Over any scroll sequence, a hidden header was last seen past 100. |
| Navbar.ScrollsEndAt | examples/components/navbar.tsx:26 | The last reading alone decides the remembered offset. A final reading below 10 always leaves the header shown. |
| Navbar.Scrolls | examples/components/navbar.tsx:26 | No reading leaves the state as it was. Otherwise the remembered offset is the last reading. |
| Navbar.ScrollIdempotent | examples/components/navbar.tsx:20-26 | A repeated reading at the same offset changes nothing. |
| Navbar.InitVisible | examples/components/navbar.tsx:13-14 | The header starts shown, at offset 0. |
| Navbar.DownThenUp | examples/components/navbar.tsx:20-24 | Scrolling 50 then 120 hides the header, and going back to 110 shows it again. Scrolling 50 then 90 keeps it shown. |
| Reveal.Step | components/ui/in-view.tsx:59-77 | `hasEntered` is never cleared. With `once`, `isInView` is never cleared. An unobserved node ignores the observer, which is never re-attached. A pending timer firing shows the node and marks it entered. With no timer pending, a firing changes nothing. |
| Reveal.Run | components/ui/in-view.tsx:59-87 | Over any events, a node that has entered stays entered, and an observer that has stopped watching the node (`unobserve`) never resumes. |
| Reveal.InitInv | components/ui/in-view.tsx:50-51 | The first render satisfies the invariant and shows the initial classes. |
| Reveal.LookIsInView | components/ui/in-view.tsx:97 | In a reachable state the in-view classes apply exactly when the node is in view. |
| Reveal.LookOf | components/ui/in-view.tsx:97 | The in-view classes apply exactly when the node has entered and is in view. |
| Reveal.RunKeepsInv | components/ui/in-view.tsx:50-77 | In every reachable state, being in view implies having entered, and timers exist only with a positive delay. With `once`, at most one timer is ever scheduled. |
| Reveal.IntersectionReveals | components/ui/in-view.tsx:62-71 | With no delay, an intersection shows the node at once. With a delay, it only schedules the reveal. |
| Reveal.LeavingHidesOnlyWithoutOnce | components/ui/in-view.tsx:75-77 | Leaving the viewport hides the node only without `once`. |
| Reveal.OncePermanent | components/ui/in-view.tsx:72-74 | With `once`, a node that has entered or is in view stays so after any events. |
| Reveal.DefaultRevealIsFinal | components/ui/in-view.tsx:45-46 | With the default props, the first intersection reveals the node for good. |
| Reveal.StaleTimerShows | components/ui/in-view.tsx:63-67 | With a delay and without `once`, a reveal scheduled before the node left still fires and shows it out of view. |
| BrandEditor.Commit | components/text-hover-effect-demo.tsx:27-32 | Leaving the input stops editing. It reports the typed value exactly when `onEdit` is given and the value differs from `text`. |
| BrandEditor.Step | components/text-hover-effect-demo.tsx:20-51 | Only a change alters the typed value. Nothing is reported while the heading is shown. A reported value always differs from `text`. |
| BrandEditor.EnterIsBlur | components/text-hover-effect-demo.tsx:33-39 | Enter acts exactly like blur, and any other key does nothing. |
| BrandEditor.ClickOpensIff | components/text-hover-effect-demo.tsx:51 | A click opens the input exactly when the heading is editable. |
| BrandEditor.RunKeepsInv | components/text-hover-effect-demo.tsx:20 | Editing is only ever on for an editable heading. |
| BrandEditor.RunReports | components/text-hover-effect-demo.tsx:27-39 | Over any events, nothing is reported without a listener or for a heading that is not editable. Every reported value differs from `text`. |
| BrandEditor.Run | components/text-hover-effect-demo.tsx:20-51 | At most one report per event, each differing from `text`. Without a listener nothing is reported. A heading that is not editable never changes. |
| BrandEditor.EditSession | components/text-hover-effect-demo.tsx:17-32 | Click, type, leave: the typed value is reported exactly when it differs from `text`, the heading is editable and `onEdit` is given. |
| BrandEditor.SecondSessionKeepsTypedValue | components/text-hover-effect-demo.tsx:18 | The field is seeded from `text` only on the first render. A second session starts from what was typed before. |

## Left out

- Storage and network: the key-value store, the CMS and booking API routes, and `fetch`. None of them holds logic beyond I/O.
- The form's validation schema in app/page.tsx belongs to a third-party validator, and its future-date rule reads the wall clock.
- Rendering, CSS classes, the section components' markup, the theme provider's DOM writes and the toast and save delays.
- Timers and observers are events. The `InView` timeout is a `TimerFires` event and its delay in milliseconds is not modelled. Observer callbacks and scroll listeners are events with their reading as a parameter. React state updates are applied in event order.
- RateLimiter.RateLimit: `Date.now()` is a parameter. Like the code, it has no guard for a non-positive `windowMs` or `max`, though a guard would be the sensible behaviour. The `ipCounters` map is never evicted. No route of the site calls `rateLimit`, so no HTTP 429 response is modelled.
- RateLimiter.BookingPolicyScenario: the 10-minute, 5-request policy is an example configuration, because no caller in the code fixes one.
- Strings.Lower: lower-casing covers ASCII letters only. Other letters are left as they are.
- Strings lengths count characters, not UTF-16 code units, so `slice` and `length` on astral characters are not modelled.
- JsonTree: object keys are used verbatim. Canonicalisation of numeric-looking property names such as "03", and inherited properties such as `constructor` or `length`, are not modelled. `Number(key)` is modelled for digit strings only, so keys like "" or " 1 " count as names.
- FeatureGrid.HexToRgba: the alpha is the text JavaScript prints for the number, passed in. Floating-point formatting is not modelled.
- FeatureGrid.IconForFeaturePriority: the icons of the eight default cards are not proved one by one. The lemma covers every title in general. The clock is stated in one direction only, because the index rule also yields it at residue 7.
- Editor.EditorEditKeepsSchema: an indexed field (a headline word or a card) counts as existing only at a position up to 2^32 - 2. A JavaScript array never holds more than 2^32 - 1 elements, so no real content is excluded.
- FeatureGrid.GridRects: a pattern entry with fewer than two coordinates (`undefined` positions) is not modelled. Entries are pairs.
- Booking.TodayFilter: "today" is a calendar-day number plus milliseconds since local midnight. Time zones and daylight-saving jumps are not modelled.
- Booking.SlotStartMs: only values that read as two numbers are handled. `Number` of other text, which is never produced by the table, is `None`.
- BrandEditor.Run: the props stay fixed over a run. A parent that changes `text` mid-run is not modelled.
- Reveal.Run: the props stay fixed over a run. The effect re-subscribes when `threshold`, `rootMargin`, `delayMs` or `once` change (components/ui/in-view.tsx:87), and that is not modelled. Neither is the cleanup at unmount (lines 83-86), which cancels the last timer and disconnects the observer.
- Navbar.OnScroll: `window.scrollY` is a double in the browser. It is modelled as an integer, so fractional offsets are not modelled.
- Editor.PanelStep: the pointer's `clientY` is a double in the browser. It is modelled as an integer, so fractional positions are not modelled.
- Editor: the save, preview and section-switch UI of the editor page are rendering and I/O.

=== FILE: Booking.dfy ===
/** The pure helpers of the booking form in app/page.tsx: the table of
    half-hour time slots, the name and email input sanitisers, the
    "today only" slot filter and the near-limit flag of the message counter. */
module Booking {
  import opened Wrappers
  import opened Strings

  // ---------------------------------------------------------------------------
  // time slots

  /** One `<Select>` option: the 24-hour value that is submitted and the
      12-hour label that is shown. */
  datatype Slot = Slot(value: string, display: string)

  /** `n.toString().padStart(2, "0")`. */
  function TwoDigit(n: nat): string {
    PadStart(NatToDecimal(n), 2, '0')
  }

  /** `"HH:MM"`, both parts zero-padded. */
  function SlotValue(hour: nat, minute: nat): (r: string)
    // below 100 both parts are two digits that read back as the numbers
    ensures hour < 100 && minute < 100 ==>
              && |r| == 5 && r[2] == ':'
              && IsNumeral(r[..2]) && DecimalValue(r[..2]) == hour
              && IsNumeral(r[3..]) && DecimalValue(r[3..]) == minute
  {
    var a := TwoDigit(hour);
    var b := TwoDigit(minute);
    TwoDigitBelow(hour);
    TwoDigitBelow(minute);
    var r := a + ":" + b;
    assert |a| == 2 ==> r[..2] == a && r[3..] == b;
    r
  }

  /** `TwoDigitDigits` for any `n`, as an implication. */
  lemma TwoDigitBelow(n: nat)
    ensures n < 100 ==> |TwoDigit(n)| == 2 && IsNumeral(TwoDigit(n)) && DecimalValue(TwoDigit(n)) == n
  {
    if n < 100 {
      TwoDigitDigits(n);
    }
  }

  function Period(hour: nat): string {
    if hour >= 12 then "PM" else "AM"
  }

  /** The hour on a 12-hour clock: 13..23 lose 12, midnight shows as 12. */
  function DisplayHour(hour: nat): nat {
    if hour > 12 then hour - 12 else if hour == 0 then 12 else hour
  }

  /** `"H:MM AM"`: unpadded hour, zero-padded minute, period. */
  function SlotLabel(hour: nat, minute: nat): (r: string)
    ensures |r| > 3 && r[|r| - 3..] == (if hour >= 12 then " PM" else " AM")
  {
    var head := NatToDecimal(DisplayHour(hour)) + ":" + TwoDigit(minute);
    assert head + " " + Period(hour) == head + (" " + Period(hour));
    head + " " + Period(hour)
  }

  function SlotAt(hour: nat, minute: nat): Slot {
    Slot(SlotValue(hour, minute), SlotLabel(hour, minute))
  }

  /** The minute of the day at which the `i`-th generated slot starts. */
  function StartMinute(i: nat): nat {
    9 * 60 + 30 * i
  }

  /** The table the form offers: 9:00 to 17:30 every half hour. */
  function TimeSlots(): (slots: seq<Slot>)
    ensures |slots| == 18
  {
    seq(18, i requires 0 <= i < 18 => SlotAt(9 + i / 2, 30 * (i % 2)))
  }

  /** `generateTimeSlots`: hours 9..17, minutes 0 and 30, in that nesting. */
  method GenerateTimeSlots() returns (slots: seq<Slot>)
    ensures |slots| == 18
    ensures forall i :: 0 <= i < 18 ==> slots[i] == SlotAt(9 + i / 2, 30 * (i % 2))
    ensures slots == TimeSlots()
  {
    slots := [];
    var hour := 9;
    while hour <= 17
      invariant 9 <= hour <= 18
      invariant |slots| == 2 * (hour - 9)
      invariant TablePrefix(slots)
    {
      var minute := 0;
      while minute < 60
        invariant minute == 0 || minute == 30 || minute == 60
        invariant |slots| == 2 * (hour - 9) + minute / 30
        invariant TablePrefix(slots)
      {
        PrefixGrows(slots, hour, minute);
        slots := slots + [SlotAt(hour, minute)];
        minute := minute + 30;
      }
      hour := hour + 1;
    }
    IsTimeSlots(slots);
  }

  /** Every entry of `s` is the table's entry at its position. */
  predicate TablePrefix(s: seq<Slot>) {
    forall i :: 0 <= i < |s| ==> s[i] == SlotAt(9 + i / 2, 30 * (i % 2))
  }

  /** Appending the slot of the next (hour, minute) pair keeps a table prefix. */
  lemma PrefixGrows(s: seq<Slot>, hour: nat, minute: nat)
    requires TablePrefix(s)
    requires hour >= 9 && (minute == 0 || minute == 30)
    requires |s| == 2 * (hour - 9) + minute / 30
    ensures TablePrefix(s + [SlotAt(hour, minute)])
  {
    SlotIndex(|s|, hour, minute);
    var t := s + [SlotAt(hour, minute)];
    forall i | 0 <= i < |t|
      ensures t[i] == SlotAt(9 + i / 2, 30 * (i % 2))
    {
      if i < |s| {
        assert t[i] == s[i];
      } else {
        assert i == |s| && t[i] == SlotAt(hour, minute);
        assert 9 + i / 2 == hour && 30 * (i % 2) == minute;
      }
    }
  }

  /** The `i`-th entry of the table. */
  lemma TimeSlotsAt()
    ensures forall i :: 0 <= i < 18 ==> TimeSlots()[i] == SlotAt(9 + i / 2, 30 * (i % 2))
  {
  }

  /** A list with the table's entries in every position is the table. */
  lemma IsTimeSlots(s: seq<Slot>)
    requires |s| == 18 && TablePrefix(s)
    ensures s == TimeSlots()
  {
    TimeSlotsAt();
  }

  /** The position a (hour, minute) pair takes in the table. */
  lemma SlotIndex(n: nat, hour: nat, minute: nat)
    requires hour >= 9 && (minute == 0 || minute == 30)
    requires n == 2 * (hour - 9) + minute / 30
    ensures 9 + n / 2 == hour && 30 * (n % 2) == minute
  {
  }

  // ---------------------------------------------------------------------------
  // reading values and labels back

  /** `value.split(":").map(Number)` for the first two fields, when both are numerals. */
  function ParseSlotValue(v: string): Option<(nat, nat)> {
    var parts := Split(v, ':');
    if |parts| >= 2 && IsNumeral(parts[0]) && IsNumeral(parts[1]) then
      Some((DecimalValue(parts[0]), DecimalValue(parts[1])))
    else None
  }

  /** Splitting `a + [sep] + b` where neither side holds the separator. */
  lemma SplitTwo(a: string, sep: char, b: string)
    requires sep !in a && sep !in b
    ensures Split(a + [sep] + b, sep) == [a, b]
  {
    assert Join([a, b], sep) == a + [sep] + b;
    SplitJoin([a, b], sep);
  }

  /** `TwoDigit(n)` for `n < 100` is the pair of its digits. */
  lemma TwoDigitDigits(n: nat)
    requires n < 100
    ensures |TwoDigit(n)| == 2 && IsNumeral(TwoDigit(n)) && ':' !in TwoDigit(n) && ' ' !in TwoDigit(n)
    ensures DecimalValue(TwoDigit(n)) == n
  {
    TwoDigits(n);
    TwoDigitsValue(n);
  }

  /** Every slot value reads back as the hour and minute it was made from. */
  lemma ValueRoundTrip(hour: nat, minute: nat)
    requires hour < 24 && minute < 60
    ensures ParseSlotValue(SlotValue(hour, minute)) == Some((hour, minute))
  {
    TwoDigitDigits(hour);
    TwoDigitDigits(minute);
    SplitTwo(TwoDigit(hour), ':', TwoDigit(minute));
  }

  /** The 24-hour hour a 12-hour label denotes; None for an hour outside 1..12 or an unknown period. */
  function To24(displayHour: nat, period: string): Option<nat> {
    if displayHour < 1 || displayHour > 12 then None
    else if period == "AM" then Some(if displayHour == 12 then 0 else displayHour)
    else if period == "PM" then Some(if displayHour == 12 then 12 else displayHour + 12)
    else None
  }

  /** The 12-hour form loses nothing: display hour and period give the hour back. */
  lemma TwelveHourClock(hour: nat)
    requires hour < 24
    ensures 1 <= DisplayHour(hour) <= 12
    ensures Period(hour) == "PM" <==> hour >= 12
    ensures To24(DisplayHour(hour), Period(hour)) == Some(hour)
  {
  }

  /** Reads a label `"H:MM AM"` back as its hour and minute. */
  function ParseLabel(text: string): Option<(nat, nat)> {
    var parts := Split(text, ' ');
    if |parts| != 2 then None
    else
      var time := Split(parts[0], ':');
      if |time| != 2 || !IsNumeral(time[0]) || !IsNumeral(time[1]) then None
      else
        var hour :- To24(DecimalValue(time[0]), parts[1]);
        Some((hour, DecimalValue(time[1])))
  }

  /** A label made of a numeral hour, a numeral minute and a period without
      spaces splits back into those parts. */
  lemma SplitLabel(dh: string, mm: string, p: string)
    requires IsNumeral(dh) && IsNumeral(mm) && ' ' !in p
    ensures Split(dh + ":" + mm + " " + p, ' ') == [dh + ":" + mm, p]
    ensures Split(dh + ":" + mm, ':') == [dh, mm]
  {
    assert !IsDigit(':') && !IsDigit(' ');
    assert ':' !in dh && ' ' !in dh && ':' !in mm && ' ' !in mm;
    var time := dh + ":" + mm;
    assert ' ' !in time;
    assert dh + ":" + mm + " " + p == time + [' '] + p;
    SplitTwo(time, ' ', p);
    SplitTwo(dh, ':', mm);
  }

  /** Every label reads back as the slot's hour and minute; its minute has two
      digits and its hour is printed without padding. */
  lemma LabelRoundTrip(hour: nat, minute: nat)
    requires hour < 24 && minute < 60
    ensures ParseLabel(SlotLabel(hour, minute)) == Some((hour, minute))
    ensures var time := Split(Split(SlotLabel(hour, minute), ' ')[0], ':');
            |time| == 2 && |time[1]| == 2 && (|time[0]| == 1 <==> DisplayHour(hour) < 10)
  {
    var dh := NatToDecimal(DisplayHour(hour));
    var mm := TwoDigit(minute);
    var p := Period(hour);
    TwoDigitDigits(minute);
    assert ' ' !in p;
    SplitLabel(dh, mm, p);
    DecimalRoundTrip(DisplayHour(hour));
    TwelveHourClock(hour);
  }

  /** A label assembled from the texts of its parts. */
  lemma LabelText(hour: nat, minute: nat, dh: string, mm: string)
    requires NatToDecimal(DisplayHour(hour)) == dh && TwoDigit(minute) == mm
    ensures SlotLabel(hour, minute) == dh + ":" + mm + " " + Period(hour)
  {
  }

  lemma HalfHourText()
    ensures TwoDigit(30) == "30"
  {
    assert NatToDecimal(30) == NatToDecimal(3) + [DigitChar(0)];
  }

  lemma NoonParts()
    ensures SlotLabel(12, 0) == "12" + ":" + "00" + " " + "PM"
  {
    TwoDigits(0);
    assert NatToDecimal(12) == "12" by {
      assert NatToDecimal(12) == NatToDecimal(1) + [DigitChar(2)];
    }
    assert TwoDigit(0) == "00";
    LabelText(12, 0, "12", "00");
  }

  lemma HalfPastNineParts()
    ensures SlotLabel(9, 30) == "9" + ":" + "30" + " " + "AM"
  {
    HalfHourText();
    assert NatToDecimal(9) == "9";
    LabelText(9, 30, "9", "30");
  }

  lemma HalfPastFiveParts()
    ensures SlotLabel(17, 30) == "5" + ":" + "30" + " " + "PM"
  {
    HalfHourText();
    assert NatToDecimal(5) == "5";
    LabelText(17, 30, "5", "30");
  }

  lemma LabelLiterals()
    ensures "12" + ":" + "00" + " " + "PM" == "12:00 PM"
    ensures "9" + ":" + "30" + " " + "AM" == "9:30 AM"
    ensures "5" + ":" + "30" + " " + "PM" == "5:30 PM"
  {
  }

  /** The labels of noon, of the first slot and of the last slot. */
  lemma SampleLabels()
    ensures SlotLabel(12, 0) == "12:00 PM"
    ensures SlotLabel(9, 30) == "9:30 AM"
    ensures SlotLabel(17, 30) == "5:30 PM"
  {
    NoonParts();
    HalfPastNineParts();
    HalfPastFiveParts();
    LabelLiterals();
  }

  // ---------------------------------------------------------------------------
  // order of the table

  /** The comparison `<` on strings of five characters, spelled out. */
  lemma LexLessFive(a: string, b: string)
    requires |a| == 5 && |b| == 5
    ensures LexLess(a, b) <==>
              a[0] < b[0] || (a[0] == b[0] && (a[1] < b[1] || (a[1] == b[1] &&
              (a[2] < b[2] || (a[2] == b[2] && (a[3] < b[3] || (a[3] == b[3] && a[4] < b[4])))))))
  {
    var a1, b1 := a[1..], b[1..];
    var a2, b2 := a1[1..], b1[1..];
    var a3, b3 := a2[1..], b2[1..];
    var a4, b4 := a3[1..], b3[1..];
    assert !LexLess(a4[1..], b4[1..]);
    assert LexLess(a4, b4) <==> a[4] < b[4];
    assert LexLess(a3, b3) <==> a[3] < b[3] || (a[3] == b[3] && LexLess(a4, b4));
    assert LexLess(a2, b2) <==> a[2] < b[2] || (a[2] == b[2] && LexLess(a3, b3));
    assert LexLess(a1, b1) <==> a[1] < b[1] || (a[1] == b[1] && LexLess(a2, b2));
  }

  /** A number below 100 compares by its tens digit, then its units digit. */
  lemma TwoDigitOrder(x: nat, y: nat)
    requires x < 100 && y < 100
    ensures x < y <==> x / 10 < y / 10 || (x / 10 == y / 10 && x % 10 < y % 10)
    ensures x == y <==> x / 10 == y / 10 && x % 10 == y % 10
  {
  }

  /** The five characters of a slot value. */
  lemma ValueChars(hour: nat, minute: nat)
    requires hour < 100 && minute < 100
    ensures SlotValue(hour, minute)
              == [DigitChar(hour / 10), DigitChar(hour % 10), ':', DigitChar(minute / 10), DigitChar(minute % 10)]
  {
    TwoDigits(hour);
    TwoDigits(minute);
    Colon(TwoDigit(hour), TwoDigit(minute));
  }

  lemma Colon(x: string, y: string)
    requires |x| == 2 && |y| == 2
    ensures x + ":" + y == [x[0], x[1], ':', y[0], y[1]]
  {
  }

  /** Times of day compare by hour, then by minute. */
  lemma TimeOrder(h1: nat, m1: nat, h2: nat, m2: nat)
    requires m1 < 60 && m2 < 60
    ensures h1 * 60 + m1 < h2 * 60 + m2 <==> h1 < h2 || (h1 == h2 && m1 < m2)
  {
  }

  /** Five-character times `HH:MM` compare as strings exactly as the times compare. */
  lemma DigitTimeOrder(h1: nat, m1: nat, h2: nat, m2: nat)
    requires h1 < 24 && m1 < 60 && h2 < 24 && m2 < 60
    ensures var a := [DigitChar(h1 / 10), DigitChar(h1 % 10), ':', DigitChar(m1 / 10), DigitChar(m1 % 10)];
            var b := [DigitChar(h2 / 10), DigitChar(h2 % 10), ':', DigitChar(m2 / 10), DigitChar(m2 % 10)];
            LexLess(a, b) <==> h1 * 60 + m1 < h2 * 60 + m2
  {
    var a := [DigitChar(h1 / 10), DigitChar(h1 % 10), ':', DigitChar(m1 / 10), DigitChar(m1 % 10)];
    var b := [DigitChar(h2 / 10), DigitChar(h2 % 10), ':', DigitChar(m2 / 10), DigitChar(m2 % 10)];
    LexLessFive(a, b);
    DigitCharOrder(h1 / 10, h2 / 10);
    DigitCharOrder(h1 % 10, h2 % 10);
    DigitCharOrder(m1 / 10, m2 / 10);
    DigitCharOrder(m1 % 10, m2 % 10);
    TwoDigitOrder(h1, h2);
    TwoDigitOrder(m1, m2);
    TimeOrder(h1, m1, h2, m2);
  }

  /** Slot values compare as strings exactly as their times compare. */
  lemma ValueOrderIsTimeOrder(h1: nat, m1: nat, h2: nat, m2: nat)
    requires h1 < 24 && m1 < 60 && h2 < 24 && m2 < 60
    ensures LexLess(SlotValue(h1, m1), SlotValue(h2, m2)) <==> h1 * 60 + m1 < h2 * 60 + m2
  {
    ValueChars(h1, m1);
    ValueChars(h2, m2);
    DigitTimeOrder(h1, m1, h2, m2);
  }

  /** Entry `i` of the table reads back as its hour and minute, which start
      the day's minute `StartMinute(i)`. */
  lemma TimeSlotParses(i: nat)
    requires i < 18
    ensures ParseSlotValue(TimeSlots()[i].value) == Some((9 + i / 2, 30 * (i % 2)))
    ensures (9 + i / 2) * 60 + 30 * (i % 2) == StartMinute(i)
  {
    TimeSlotsAt();
    ValueRoundTrip(9 + i / 2, 30 * (i % 2));
  }

  /** The table is in time order, half an hour apart; the values are distinct
      and their string order is the table order. */
  lemma TimeSlotsOrdered(i: nat, j: nat)
    requires i < 18 && j < 18
    ensures LexLess(TimeSlots()[i].value, TimeSlots()[j].value) <==> i < j
    ensures TimeSlots()[i].value == TimeSlots()[j].value <==> i == j
  {
    var hi, mi := 9 + i / 2, 30 * (i % 2);
    var hj, mj := 9 + j / 2, 30 * (j % 2);
    TimeSlotParses(i);
    TimeSlotParses(j);
    TimeSlotsAt();
    assert TimeSlots()[i].value == SlotValue(hi, mi);
    assert TimeSlots()[j].value == SlotValue(hj, mj);
    ValueOrderIsTimeOrder(hi, mi, hj, mj);
  }

  // ---------------------------------------------------------------------------
  // the today-only filter

  /** The current moment: the local calendar day and the milliseconds since
      its local midnight. */
  datatype Clock = Clock(day: int, msOfDay: int)

  /** When the slot starts on the selected day, in milliseconds since
      midnight (`setHours(hours, minutes, 0, 0)`); None when the value does
      not read as two numbers. */
  function SlotStartMs(s: Slot): (r: Option<int>)
    ensures r.Some? <==> ParseSlotValue(s.value).Some?
    ensures r.Some? ==> r.value >= 0 && r.value % 60000 == 0
  {
    match ParseSlotValue(s.value)
    case Some((h, m)) => Some((h * 60 + m) * 60000)
    case None => None
  }

  /** `slots.filter(slot => slotDateTime > now)` on the current day. */
  function LaterSlots(slots: seq<Slot>, nowMs: int): (r: seq<Slot>)
    ensures |r| <= |slots|
    ensures forall s :: s in r <==> s in slots && SlotStartMs(s).Some? && SlotStartMs(s).value > nowMs
  {
    if |slots| == 0 then []
    else
      var rest := LaterSlots(slots[1..], nowMs);
      var st := SlotStartMs(slots[0]);
      if st.Some? && st.value > nowMs then [slots[0]] + rest else rest
  }

  /** The options offered for the selected day (`None`: no day picked): only
      later slots when it is today, all of them otherwise. */
  function AvailableSlots(slots: seq<Slot>, selected: Option<int>, now: Clock): (r: seq<Slot>)
    ensures selected != Some(now.day) ==> r == slots
    ensures selected == Some(now.day) ==>
              forall s :: s in r <==> s in slots && SlotStartMs(s).Some? && SlotStartMs(s).value > now.msOfDay
  {
    if selected == Some(now.day) then LaterSlots(slots, now.msOfDay) else slots
  }

  /** When every slot starts later than the bound, none is dropped. */
  lemma {:induction false} AllLater(slots: seq<Slot>, starts: seq<int>, t: int)
    requires |starts| == |slots|
    requires forall i :: 0 <= i < |slots| ==> SlotStartMs(slots[i]) == Some(starts[i])
    requires forall i :: 0 <= i < |slots| ==> starts[i] > t
    ensures LaterSlots(slots, t) == slots
  {
    if |slots| > 0 {
      AllLater(slots[1..], starts[1..], t);
    }
  }

  /** Filtering slots in strictly increasing start order keeps a suffix:
      exactly the slots that start after the bound. */
  lemma {:induction false} LaterSlotsSuffix(slots: seq<Slot>, starts: seq<int>, t: int)
    requires |starts| == |slots|
    requires forall i :: 0 <= i < |slots| ==> SlotStartMs(slots[i]) == Some(starts[i])
    requires forall i, j :: 0 <= i < j < |slots| ==> starts[i] < starts[j]
    ensures var k := |slots| - |LaterSlots(slots, t)|;
            && LaterSlots(slots, t) == slots[k..]
            && (forall i :: 0 <= i < k ==> starts[i] <= t)
            && (forall i :: k <= i < |slots| ==> starts[i] > t)
  {
    if |slots| > 0 {
      if starts[0] > t {
        AllLater(slots, starts, t);
      } else {
        LaterSlotsSuffix(slots[1..], starts[1..], t);
        assert LaterSlots(slots, t) == LaterSlots(slots[1..], t);
        var k := |slots| - |LaterSlots(slots, t)|;
        assert slots[1..][k - 1..] == slots[k..];
        forall i | 1 <= i < k
          ensures starts[i] <= t
        {
          assert starts[1..][i - 1] == starts[i];
        }
      }
    }
  }

  /** The start of each table entry, in milliseconds since midnight. */
  function TableStartsMs(): (r: seq<int>)
    ensures |r| == 18 && forall i :: 0 <= i < 18 ==> r[i] == StartMinute(i) * 60000
  {
    seq(18, i requires 0 <= i < 18 => StartMinute(i) * 60000)
  }

  /** Reading the table's values gives those starts, which strictly increase. */
  lemma TableStarts()
    ensures forall i :: 0 <= i < 18 ==> SlotStartMs(TimeSlots()[i]) == Some(TableStartsMs()[i])
    ensures forall i, j :: 0 <= i < j < 18 ==> TableStartsMs()[i] < TableStartsMs()[j]
  {
    forall i | 0 <= i < 18
      ensures SlotStartMs(TimeSlots()[i]) == Some(TableStartsMs()[i])
    {
      TimeSlotParses(i);
    }
  }

  /** On today's date the form offers exactly the slots that start later than
      now, which form the tail of the table; on any other date, or with no
      date picked, it offers all 18. */
  lemma TodayFilter(selected: Option<int>, now: Clock)
    ensures selected != Some(now.day) ==> AvailableSlots(TimeSlots(), selected, now) == TimeSlots()
    ensures selected == Some(now.day) ==>
              var r := AvailableSlots(TimeSlots(), selected, now);
              var k := 18 - |r|;
              && r == TimeSlots()[k..]
              && (forall i :: 0 <= i < k ==> StartMinute(i) * 60000 <= now.msOfDay)
              && (forall i :: k <= i < 18 ==> StartMinute(i) * 60000 > now.msOfDay)
  {
    if selected == Some(now.day) {
      TableStarts();
      LaterSlotsSuffix(TimeSlots(), TableStartsMs(), now.msOfDay);
    }
  }

  // ---------------------------------------------------------------------------
  // input sanitisers

  /** `s.replace(re, "")` for a global pattern matching single characters
      (or runs of them) that satisfy `drop`. */
  function Without(s: string, drop: char -> bool): (r: string)
    ensures |r| <= |s|
    ensures forall i :: 0 <= i < |r| ==> !drop(r[i])
    ensures forall c :: c in r ==> c in s
  {
    if |s| == 0 then ""
    else if drop(s[0]) then Without(s[1..], drop)
    else [s[0]] + Without(s[1..], drop)
  }

  /** Removal works piecewise: on a concatenation it is the removal on each part. */
  lemma {:induction false} WithoutAppend(a: string, b: string, drop: char -> bool)
    ensures Without(a + b, drop) == Without(a, drop) + Without(b, drop)
  {
    if |a| > 0 {
      assert (a + b)[1..] == a[1..] + b;
      WithoutAppend(a[1..], b, drop);
    } else {
      assert a + b == b;
    }
  }

  /** A string is left unchanged by removal exactly when it has nothing to remove. */
  lemma {:induction false} WithoutFixedIff(s: string, drop: char -> bool)
    ensures Without(s, drop) == s <==> forall i :: 0 <= i < |s| ==> !drop(s[i])
  {
    if |s| > 0 && !drop(s[0]) {
      WithoutFixedIff(s[1..], drop);
      assert forall i :: 1 <= i < |s| ==> s[1..][i - 1] == s[i];
    }
  }

  /** `s.slice(0, n)`. */
  function Take(s: string, n: nat): (r: string)
    ensures |r| <= n && |r| <= |s|
    ensures r == s[..|r|]
    ensures |s| <= n ==> r == s
  {
    if |s| <= n then s else s[..n]
  }

  const NameMaxLength: nat := 100
  const EmailMaxLength: nat := 255

  /** The `onChange` sanitiser of the name input: digits removed, then cut to 100. */
  function SanitizeName(s: string): (r: string)
    ensures |r| <= NameMaxLength && forall i :: 0 <= i < |r| ==> !IsDigit(r[i])
  {
    Sanitizer(s, IsDigit, NameMaxLength);
    Take(Without(s, IsDigit), NameMaxLength)
  }

  /** The `onChange` sanitiser of the email input: whitespace removed, then cut to 255. */
  function SanitizeEmail(s: string): (r: string)
    ensures |r| <= EmailMaxLength && forall i :: 0 <= i < |r| ==> !IsWhitespace(r[i])
  {
    Sanitizer(s, IsWhitespace, EmailMaxLength);
    Take(Without(s, IsWhitespace), EmailMaxLength)
  }

  /** Removing then truncating: the result holds no removed character, stays
      within the bound, is a prefix of the kept characters, and applying it
      again changes nothing. It leaves exactly the clean short strings as they are. */
  lemma Sanitizer(s: string, drop: char -> bool, n: nat)
    ensures var r := Take(Without(s, drop), n);
            && |r| <= n
            && (forall i :: 0 <= i < |r| ==> !drop(r[i]))
            && r == Without(s, drop)[..|r|]
            && Take(Without(r, drop), n) == r
    ensures Take(Without(s, drop), n) == s <==> |s| <= n && forall i :: 0 <= i < |s| ==> !drop(s[i])
  {
    var r := Take(Without(s, drop), n);
    WithoutFixedIff(r, drop);
    WithoutFixedIff(s, drop);
    if Take(Without(s, drop), n) == s {
      assert |s| <= n;
    }
  }

  /** The name and email sanitisers have these properties with their own bounds. */
  lemma SanitizersClean(name: string, email: string)
    ensures var r := SanitizeName(name);
            |r| <= 100 && (forall i :: 0 <= i < |r| ==> !IsDigit(r[i])) && SanitizeName(r) == r
    ensures var r := SanitizeEmail(email);
            |r| <= 255 && (forall i :: 0 <= i < |r| ==> !IsWhitespace(r[i])) && SanitizeEmail(r) == r
  {
    Sanitizer(name, IsDigit, NameMaxLength);
    Sanitizer(email, IsWhitespace, EmailMaxLength);
  }

  // ---------------------------------------------------------------------------
  // message counter

  const MessageMaxLength: nat := 1000

  /** `field.value?.length || 0`. */
  function CurrentLength(message: Option<string>): nat {
    match message
    case Some(m) => |m|
    case None => 0
  }

  /** `currentLength > maxLength * 0.9`; the double product is exactly 900. */
  predicate IsNearLimit(message: Option<string>)
    ensures IsNearLimit(message) <==> CurrentLength(message) > 900
  {
    CurrentLength(message) as real > MessageMaxLength as real * 0.9
  }

  /** The counter turns to its warning colour exactly above 900 characters;
      an empty or absent message never does. */
  lemma NearLimitIff(message: Option<string>)
    ensures IsNearLimit(message) <==> message.Some? && |message.value| > 900
  {
  }
}

=== FILE: BrandEditor.dfy ===
/** The click-to-edit brand heading of components/text-hover-effect-demo.tsx.

    The DOM events the component handles become `BrandEvent`s; a call of the
    `onEdit` callback becomes an emitted value. The props stay fixed over a run. */
module BrandEditor {
  import opened Wrappers

  /** `text` (default "BookEasy"), `isEditable` (default false) and whether `onEdit` was passed. */
  datatype BrandProps = BrandProps(text: string, isEditable: bool, hasOnEdit: bool)

  /** `isEditing` and `editValue`. */
  datatype BrandState = BrandState(isEditing: bool, editValue: string)

  /** The first render: not editing, the field seeded with `text`. */
  function Init(p: BrandProps): BrandState {
    BrandState(false, p.text)
  }

  datatype BrandEvent =
    | Click               // on the heading
    | Change(value: string)  // the input's new value
    | Blur
    | KeyDown(key: string)

  /** The input replaces the heading exactly in this case. */
  predicate ShowsInput(p: BrandProps, s: BrandState) {
    p.isEditable && s.isEditing
  }

  /** What leaving the input does: stop editing and report the value if it
      differs from `text` and someone listens. */
  function Commit(p: BrandProps, s: BrandState): (r: (BrandState, Option<string>))
    ensures !r.0.isEditing && r.0.editValue == s.editValue
    ensures r.1.Some? <==> p.hasOnEdit && s.editValue != p.text
    ensures r.1.Some? ==> r.1.value == s.editValue
  {
    (s.(isEditing := false), if p.hasOnEdit && s.editValue != p.text then Some(s.editValue) else None)
  }

  /** One event: the handlers of whatever is on screen run; events aimed at
      the element that is not rendered do nothing. */
  function Step(p: BrandProps, s: BrandState, e: BrandEvent): (r: (BrandState, Option<string>))
    // only a change of the input alters the value being edited
    ensures !e.Change? ==> r.0.editValue == s.editValue
    // nothing is reported while the heading is shown
    ensures !ShowsInput(p, s) ==> r.1 == None
    // a reported value always differs from `text`
    ensures r.1.Some? ==> p.hasOnEdit && r.1.value != p.text
  {
    if ShowsInput(p, s) then
      match e
      case Click => (s, None)
      case Change(v) => (s.(editValue := v), None)
      case Blur => Commit(p, s)
      case KeyDown(key) => if key == "Enter" then Commit(p, s) else (s, None)
    else
      match e
      case Click => (if p.isEditable then s.(isEditing := true) else s, None)
      case _ => (s, None)
  }

  /** The final state and the values handed to `onEdit`, in order. */
  function Run(p: BrandProps, s: BrandState, es: seq<BrandEvent>): (r: (BrandState, seq<string>))
    // at most one report per event, each differing from `text`
    ensures |r.1| <= |es|
    ensures forall i :: 0 <= i < |r.1| ==> r.1[i] != p.text
    // without a listener nothing is reported; a read-only heading never changes
    ensures !p.hasOnEdit ==> r.1 == []
    ensures !p.isEditable ==> r == (s, [])
    decreases |es|
  {
    if |es| == 0 then (s, [])
    else
      var (t, out) := Step(p, s, es[0]);
      var (u, rest) := Run(p, t, es[1..]);
      (u, (if out.Some? then [out.value] else []) + rest)
  }

  /** Enter commits exactly like blur; any other key does nothing. */
  lemma EnterIsBlur(p: BrandProps, s: BrandState, key: string)
    requires ShowsInput(p, s)
    ensures key == "Enter" ==> Step(p, s, KeyDown(key)) == Step(p, s, Blur)
    ensures key != "Enter" ==> Step(p, s, KeyDown(key)) == (s, None)
  {
  }

  /** A click opens the input exactly when the heading is editable. */
  lemma ClickOpensIff(p: BrandProps, s: BrandState)
    requires !s.isEditing
    ensures ShowsInput(p, Step(p, s, Click).0) <==> p.isEditable
  {
  }

  /** Editing is only ever switched on for an editable heading. */
  predicate BrandInv(p: BrandProps, s: BrandState) {
    s.isEditing ==> p.isEditable
  }

  lemma {:induction false} RunKeepsInv(p: BrandProps, s: BrandState, es: seq<BrandEvent>)
    requires BrandInv(p, s)
    ensures BrandInv(p, Run(p, s, es).0)
    decreases |es|
  {
    if |es| > 0 {
      RunKeepsInv(p, Step(p, s, es[0]).0, es[1..]);
    }
  }

  /** None of the reported values is the original `text`. */
  predicate AllDiffer(out: seq<string>, text: string) {
    forall i :: 0 <= i < |out| ==> out[i] != text
  }

  /** Over any run: nothing is reported without a listener or for a heading
      that is not editable, and every reported value differs from `text`. */
  lemma {:induction false} RunReports(p: BrandProps, s: BrandState, es: seq<BrandEvent>)
    ensures !p.hasOnEdit || !p.isEditable ==> Run(p, s, es).1 == []
    ensures AllDiffer(Run(p, s, es).1, p.text)
    decreases |es|
  {
    if |es| > 0 {
      var step := Step(p, s, es[0]);
      var t, o := step.0, step.1;
      RunReports(p, t, es[1..]);
      var head := if o.Some? then [o.value] else [];
      var rest := Run(p, t, es[1..]).1;
      assert Run(p, s, es).1 == head + rest;
      forall i | 0 <= i < |head + rest|
        ensures (head + rest)[i] != p.text
      {
        if i >= |head| {
          assert (head + rest)[i] == rest[i - |head|];
        }
      }
    }
  }

  /** Click, type, leave: the typed value is reported exactly when it
      differs from `text`, the heading is editable and `onEdit` was given. */
  lemma EditSession(p: BrandProps, v: string)
    ensures var (s, out) := Run(p, Init(p), [Click, Change(v), Blur]);
            && !s.isEditing
            && (out == [v] <==> p.isEditable && p.hasOnEdit && v != p.text)
            && (out == [] <==> !(p.isEditable && p.hasOnEdit && v != p.text))
  {
    var s0 := Init(p);
    var s1 := Step(p, s0, Click).0;
    var s2 := Step(p, s1, Change(v)).0;
    var (s3, o3) := Step(p, s2, Blur);
    assert [Click, Change(v), Blur][1..] == [Change(v), Blur];
    assert [Change(v), Blur][1..] == [Blur];
    var head: seq<string> := if o3.Some? then [o3.value] else [];
    assert Run(p, s3, []) == (s3, []);
    assert head + [] == head;
    assert Run(p, s2, [Blur]) == (s3, head);
  }

  /** The field is seeded from `text` only on the first render: a second
      session starts from what was typed in the first, not from `text`. */
  lemma SecondSessionKeepsTypedValue(p: BrandProps, v: string)
    requires p.isEditable
    ensures var (s, _) := Run(p, Init(p), [Click, Change(v), Blur, Click]);
            ShowsInput(p, s) && s.editValue == v
  {
    var s1 := Step(p, Init(p), Click).0;
    var s2 := Step(p, s1, Change(v)).0;
    var s3 := Step(p, s2, Blur).0;
    assert s3 == BrandState(false, v);
    var es := [Click, Change(v), Blur, Click];
    assert es[1..] == [Change(v), Blur, Click];
    assert es[1..][1..] == [Blur, Click];
    assert es[1..][1..][1..] == [Click];
    assert Run(p, s3, [Click]).0 == BrandState(true, v);
    assert Run(p, s2, [Blur, Click]).0 == BrandState(true, v);
    assert Run(p, s1, [Change(v), Blur, Click]).0 == BrandState(true, v);
  }
}

=== FILE: CmsContent.dfy ===
/** The `CMSContent` schema of lib/cms-content.ts, its encoding as the JSON
    tree the editor works on, and the shipped `defaultContent`. */
module CmsContent {
  import opened Wrappers
  import opened JsonTree

  datatype Hero = Hero(headline: seq<string>, eyebrow: string, title: string, description: string, ctaText: string)
  datatype Card = Card(title: string, description: string)
  datatype Features = Features(title: string, description: string, cards: seq<Card>)
  datatype BookingForm = BookingForm(title: string, description: string)
  datatype Footer = Footer(brandName: string, companyName: string, tagline: string)
  datatype Theme = Theme(primaryColor: string, accentColor: string, headingFont: string, bodyFont: string)
  datatype Content = Content(hero: Hero, features: Features, bookingForm: BookingForm, footer: Footer, theme: Theme)

  // ---------------------------------------------------------------------------
  // encoding

  function StrList(xs: seq<string>): (r: seq<Json>)
    ensures |r| == |xs| && forall i :: 0 <= i < |xs| ==> r[i] == Str(xs[i])
  {
    seq(|xs|, i requires 0 <= i < |xs| => Str(xs[i]))
  }

  function HeroJson(h: Hero): Json {
    Obj(map["headline" := Arr(StrList(h.headline)), "eyebrow" := Str(h.eyebrow), "title" := Str(h.title),
            "description" := Str(h.description), "ctaText" := Str(h.ctaText)])
  }

  function CardJson(c: Card): Json {
    Obj(map["title" := Str(c.title), "description" := Str(c.description)])
  }

  function CardList(cards: seq<Card>): (r: seq<Json>)
    ensures |r| == |cards| && forall i :: 0 <= i < |cards| ==> r[i] == CardJson(cards[i])
  {
    seq(|cards|, i requires 0 <= i < |cards| => CardJson(cards[i]))
  }

  function FeaturesJson(f: Features): Json {
    Obj(map["title" := Str(f.title), "description" := Str(f.description), "cards" := Arr(CardList(f.cards))])
  }

  function BookingFormJson(b: BookingForm): Json {
    Obj(map["title" := Str(b.title), "description" := Str(b.description)])
  }

  function FooterJson(f: Footer): Json {
    Obj(map["brandName" := Str(f.brandName), "companyName" := Str(f.companyName), "tagline" := Str(f.tagline)])
  }

  function ThemeJson(t: Theme): Json {
    Obj(map["primaryColor" := Str(t.primaryColor), "accentColor" := Str(t.accentColor),
            "headingFont" := Str(t.headingFont), "bodyFont" := Str(t.bodyFont)])
  }

  /** The tree `JSON.parse(JSON.stringify(content))` holds. */
  function ToJson(c: Content): Json {
    Obj(map["hero" := HeroJson(c.hero), "features" := FeaturesJson(c.features),
            "bookingForm" := BookingFormJson(c.bookingForm), "footer" := FooterJson(c.footer),
            "theme" := ThemeJson(c.theme)])
  }

  // ---------------------------------------------------------------------------
  // decoding: reads the schema back, ignoring fields it does not know

  function StrAt(j: Json, k: string): Option<string> {
    match Child(j, k)
    case Some(Str(s)) => Some(s)
    case _ => None
  }

  function StrsOf(items: seq<Json>): Option<seq<string>> {
    if |items| == 0 then Some([])
    else
      match items[0]
      case Str(s) =>
        var rest :- StrsOf(items[1..]);
        Some([s] + rest)
      case _ => None
  }

  function CardOf(j: Json): Option<Card> {
    var title :- StrAt(j, "title");
    var description :- StrAt(j, "description");
    Some(Card(title, description))
  }

  function CardsOf(items: seq<Json>): Option<seq<Card>> {
    if |items| == 0 then Some([])
    else
      var c :- CardOf(items[0]);
      var rest :- CardsOf(items[1..]);
      Some([c] + rest)
  }

  function HeroOf(j: Json): Option<Hero> {
    var headline :- match Child(j, "headline")
                    case Some(Arr(items)) => StrsOf(items)
                    case _ => None;
    var eyebrow :- StrAt(j, "eyebrow");
    var title :- StrAt(j, "title");
    var description :- StrAt(j, "description");
    var ctaText :- StrAt(j, "ctaText");
    Some(Hero(headline, eyebrow, title, description, ctaText))
  }

  function FeaturesOf(j: Json): Option<Features> {
    var title :- StrAt(j, "title");
    var description :- StrAt(j, "description");
    var cards :- match Child(j, "cards")
                 case Some(Arr(items)) => CardsOf(items)
                 case _ => None;
    Some(Features(title, description, cards))
  }

  function BookingFormOf(j: Json): Option<BookingForm> {
    var title :- StrAt(j, "title");
    var description :- StrAt(j, "description");
    Some(BookingForm(title, description))
  }

  function FooterOf(j: Json): Option<Footer> {
    var brandName :- StrAt(j, "brandName");
    var companyName :- StrAt(j, "companyName");
    var tagline :- StrAt(j, "tagline");
    Some(Footer(brandName, companyName, tagline))
  }

  function ThemeOf(j: Json): Option<Theme> {
    var primaryColor :- StrAt(j, "primaryColor");
    var accentColor :- StrAt(j, "accentColor");
    var headingFont :- StrAt(j, "headingFont");
    var bodyFont :- StrAt(j, "bodyFont");
    Some(Theme(primaryColor, accentColor, headingFont, bodyFont))
  }

  /** The content a tree encodes, if it has the shape of `CMSContent`. */
  function FromJson(j: Json): Option<Content> {
    var hero :- match Child(j, "hero") case Some(h) => HeroOf(h) case None => None;
    var features :- match Child(j, "features") case Some(f) => FeaturesOf(f) case None => None;
    var bookingForm :- match Child(j, "bookingForm") case Some(b) => BookingFormOf(b) case None => None;
    var footer :- match Child(j, "footer") case Some(f) => FooterOf(f) case None => None;
    var theme :- match Child(j, "theme") case Some(t) => ThemeOf(t) case None => None;
    Some(Content(hero, features, bookingForm, footer, theme))
  }

  lemma {:induction false} StrsRoundTrip(xs: seq<string>)
    ensures StrsOf(StrList(xs)) == Some(xs)
  {
    if |xs| > 0 {
      assert StrList(xs)[1..] == StrList(xs[1..]);
      StrsRoundTrip(xs[1..]);
      assert xs == [xs[0]] + xs[1..];
    }
  }

  lemma {:induction false} CardsRoundTrip(cards: seq<Card>)
    ensures CardsOf(CardList(cards)) == Some(cards)
  {
    if |cards| > 0 {
      assert CardList(cards)[1..] == CardList(cards[1..]);
      CardsRoundTrip(cards[1..]);
      assert cards == [cards[0]] + cards[1..];
    }
  }

  lemma HeroRoundTrip(h: Hero)
    ensures HeroOf(HeroJson(h)) == Some(h)
  {
    StrsRoundTrip(h.headline);
  }

  lemma FeaturesRoundTrip(f: Features)
    ensures FeaturesOf(FeaturesJson(f)) == Some(f)
  {
    CardsRoundTrip(f.cards);
  }

  /** The sections of the encoding sit under their schema names. */
  lemma ToJsonSections(c: Content)
    ensures Child(ToJson(c), "hero") == Some(HeroJson(c.hero))
    ensures Child(ToJson(c), "features") == Some(FeaturesJson(c.features))
    ensures Child(ToJson(c), "bookingForm") == Some(BookingFormJson(c.bookingForm))
    ensures Child(ToJson(c), "footer") == Some(FooterJson(c.footer))
    ensures Child(ToJson(c), "theme") == Some(ThemeJson(c.theme))
  {
  }

  lemma SmallSectionsRoundTrip(c: Content)
    ensures BookingFormOf(BookingFormJson(c.bookingForm)) == Some(c.bookingForm)
    ensures FooterOf(FooterJson(c.footer)) == Some(c.footer)
    ensures ThemeOf(ThemeJson(c.theme)) == Some(c.theme)
  {
  }

  /** Decoding the encoding of any content gives that content back. */
  lemma ContentRoundTrip(c: Content)
    ensures FromJson(ToJson(c)) == Some(c)
  {
    ToJsonSections(c);
    HeroRoundTrip(c.hero);
    FeaturesRoundTrip(c.features);
    SmallSectionsRoundTrip(c);
  }

  // ---------------------------------------------------------------------------
  // the shipped defaults

  const DefaultContent: Content := Content(
    Hero(["SCHEDULE", "YOUR", "APPOINTMENT", "IN SECONDS"],
         "Fast, Easy Booking",
         "Fast, Easy Booking",
         "Pick a date and time that works for you — we'll automatically add it to your calendar.",
         "Book Now"),
    Features(
      "Fast, Easy, and Hassle-Free Scheduling",
      "No more back-and-forth emails. Our online booking form connects directly to Google Calendar so your appointment is instantly saved and confirmed.",
      [ Card("Instant Confirmation", "Get immediate confirmation of your booking with automated email notifications sent to both you and your clients."),
        Card("Google Calendar Sync", "Automatically sync appointments with Google Calendar, ensuring you never miss a meeting or double-book."),
        Card("Automatic Reminders", "Send automated reminders to clients before their appointments, reducing no-shows and improving attendance rates."),
        Card("Flexible Time Slots", "Choose from customizable time slots that fit your schedule, with options for different appointment durations."),
        Card("Easy Rescheduling", "Allow clients to easily reschedule or cancel appointments with just a few clicks, keeping your calendar up to date."),
        Card("Mobile Friendly", "Book appointments on any device with our fully responsive design that works seamlessly on desktop, tablet, and mobile."),
        Card("Secure & Private", "Your data is protected with industry-standard encryption and security measures, ensuring complete privacy and compliance."),
        Card("24/7 Availability", "Accept bookings around the clock, even when you're offline, so clients can schedule at their convenience.") ]),
    BookingForm("Book Your Appointment", "Fill out the form below and we'll confirm your appointment"),
    Footer("BookEasy", "BookEasy", "Making appointments simple"),
    Theme("#8b5cf6", "#7c3aed", "Inter", "Inter"))

  /** The default headline has four lines and the third, the one the hero
      section highlights by position, is "APPOINTMENT". */
  lemma DefaultHeadline()
    ensures |DefaultContent.hero.headline| == 4
    ensures DefaultContent.hero.headline[2] == "APPOINTMENT"
  {
  }

  /** The eight default cards have pairwise different titles, as the title is
      the list key the features grid renders them by. */
  lemma DefaultCardTitlesDistinct()
    ensures |DefaultContent.features.cards| == 8
    ensures forall i, j :: 0 <= i < j < 8 ==>
              DefaultContent.features.cards[i].title != DefaultContent.features.cards[j].title
  {
  }
}

=== FILE: Editor.dfy ===
/** The visual CMS editor of app/admin/editor/page.tsx: the `handleEdit`
    path update, the fields the editor's sections issue edits for, the font
    list of the styling panel and the drag-to-close state of that panel. */
module Editor {
  import opened Wrappers
  import opened Strings
  import opened JsonTree
  import opened CmsContent

  /** The `value` argument of `handleEdit`: `string | string[]`. */
  datatype EditValue = Text(text: string) | Lines(lines: seq<string>)

  /** `lines.filter(keep)`: the lines `keep` accepts, in their order. */
  function Filter(lines: seq<string>, keep: string -> bool): (r: seq<string>)
    ensures |r| <= |lines|
    ensures forall i :: 0 <= i < |r| ==> keep(r[i])
    ensures (forall i :: 0 <= i < |lines| ==> keep(lines[i])) ==> r == lines
    decreases |lines|
  {
    if |lines| == 0 then []
    else
      var rest := Filter(lines[1..], keep);
      if keep(lines[0]) then
        assert lines == [lines[0]] + lines[1..];
        [lines[0]] + rest
      else rest
  }

  /** The filter keeps exactly the accepted lines: a line is in the result
      if and only if it is one of the input lines and `keep` accepts it. */
  lemma {:induction false} FilterMembers(lines: seq<string>, keep: string -> bool)
    ensures forall x :: x in Filter(lines, keep) <==> x in lines && keep(x)
    decreases |lines|
  {
    if |lines| > 0 {
      FilterMembers(lines[1..], keep);
      assert lines == [lines[0]] + lines[1..];
    }
  }

  /** The filter works line by line: filtering two blocks of lines one after
      the other is filtering them together, so the kept lines keep their order. */
  lemma {:induction false} FilterAppend(a: seq<string>, b: seq<string>, keep: string -> bool)
    ensures Filter(a + b, keep) == Filter(a, keep) + Filter(b, keep)
    decreases |a|
  {
    if |a| == 0 {
      assert a + b == b;
    } else {
      assert (a + b)[0] == a[0] && (a + b)[1..] == a[1..] + b;
      FilterAppend(a[1..], b, keep);
      if keep(a[0]) {
        assert [a[0]] + (Filter(a[1..], keep) + Filter(b, keep))
            == ([a[0]] + Filter(a[1..], keep)) + Filter(b, keep);
      }
    }
  }

  /** A line whose trimmed text is not empty. */
  predicate NotBlank(line: string) {
    Trim(line) != ""
  }

  /** Keeps the lines whose trimmed text is not empty, in order. */
  function NonBlank(lines: seq<string>): (r: seq<string>)
    ensures |r| <= |lines|
    ensures forall i :: 0 <= i < |r| ==> Trim(r[i]) != ""
    ensures (forall i :: 0 <= i < |lines| ==> Trim(lines[i]) != "") ==> r == lines
  {
    var r := Filter(lines, NotBlank);
    assert forall i :: 0 <= i < |r| ==> NotBlank(r[i]);
    r
  }

  /** A line is kept exactly when it is one of the input lines and not blank. */
  lemma NonBlankMembers(lines: seq<string>)
    ensures forall x :: x in NonBlank(lines) <==> x in lines && Trim(x) != ""
  {
    FilterMembers(lines, NotBlank);
  }

  /** Filtering two blocks of lines is filtering each and concatenating. */
  lemma NonBlankAppend(a: seq<string>, b: seq<string>)
    ensures NonBlank(a + b) == NonBlank(a) + NonBlank(b)
  {
    FilterAppend(a, b, NotBlank);
  }

  /** A single line is kept exactly when it is not blank. */
  lemma NonBlankOne(x: string)
    ensures NonBlank([x]) == if Trim(x) == "" then [] else [x]
  {
    assert [x][1..] == [];
  }

  /** `value.split('\n').filter(line => line.trim() !== '')`. */
  function HeadlineLines(text: string): (r: seq<string>)
    ensures forall x :: x in r <==> x in Split(text, '\n') && Trim(x) != ""
    ensures forall i :: 0 <= i < |r| ==> '\n' !in r[i] && Trim(r[i]) != ""
  {
    var parts := Split(text, '\n');
    NonBlankMembers(parts);
    KeptHaveNoSeparator(parts, NonBlank(parts), '\n');
    NonBlank(parts)
  }

  /** Lines kept from separator-free parts are separator-free. */
  lemma KeptHaveNoSeparator(parts: seq<string>, kept: seq<string>, sep: char)
    requires forall i :: 0 <= i < |parts| ==> sep !in parts[i]
    requires forall x :: x in kept ==> x in parts
    ensures forall i :: 0 <= i < |kept| ==> sep !in kept[i]
  {
    forall i | 0 <= i < |kept|
      ensures sep !in kept[i]
    {
      assert kept[i] in parts;
      var j :| 0 <= j < |parts| && parts[j] == kept[i];
    }
  }

  const HeadlineField: string := "hero.headline"

  /** The value `handleEdit` stores: text for exactly the field `hero.headline`
      becomes its non-blank lines; everything else is stored as given. */
  function StoredValue(field: string, value: EditValue): (v: Json)
    ensures field == HeadlineField && value.Text? ==>
              v.Arr? && forall i :: 0 <= i < |v.items| ==> v.items[i].Str? && Trim(v.items[i].s) != ""
    // the stored entries are the text's non-blank lines, in order
    ensures field == HeadlineField && value.Text? ==>
              v == Arr(StrList(NonBlank(Split(value.text, '\n'))))
    ensures field != HeadlineField ==>
              v == match value case Text(t) => Str(t) case Lines(ls) => Arr(StrList(ls))
  {
    if field == HeadlineField && value.Text? then Arr(StrList(HeadlineLines(value.text)))
    else match value
      case Text(t) => Str(t)
      case Lines(ls) => Arr(StrList(ls))
  }

  /** `handleEdit(field, value)` on the editor's `content` state: no content
      means nothing happens; otherwise the edited clone, or the TypeError the
      walk throws, which leaves the state as it was. */
  function HandleEdit(content: Option<Json>, field: string, value: EditValue): (r: Result<Option<Json>, EditError>)
    ensures content.None? ==> r == Ok(None)
    ensures r.Ok? && content.Some? ==> r.value.Some?
  {
    match content
    case None => Ok(None)
    case Some(j) =>
      match SetPath(j, Split(field, '.'), StoredValue(field, value))
      case Ok(j') => Ok(Some(j'))
      case Err(e) => Err(e)
  }

  /** After an edit whose last key lands, the dotted path reads back the
      stored value, and every existing path branching off it is unchanged. */
  lemma HandleEditReadsBack(j: Json, field: string, value: EditValue, p: seq<string>)
    requires Lands(j, Split(field, '.'))
    ensures HandleEdit(Some(j), field, value).Ok?
    ensures var j' := HandleEdit(Some(j), field, value).value.value;
            && Get(j', Split(field, '.')) == Some(StoredValue(field, value))
            && (BranchesOff(j, p, Split(field, '.')) && Get(j, p).Some? ==> Get(j', p) == Get(j, p))
  {
    var keys := Split(field, '.');
    GetAfterSet(j, keys, StoredValue(field, value));
    if BranchesOff(j, p, keys) && Get(j, p).Some? {
      SetPathFrame(j, keys, StoredValue(field, value), p);
    }
  }

  /** Headline lines that are non-blank and contain no line break survive a
      join with line breaks and the edit's split-and-filter unchanged. */
  lemma HeadlineRoundTrip(lines: seq<string>)
    requires |lines| >= 1
    requires forall i :: 0 <= i < |lines| ==> '\n' !in lines[i] && Trim(lines[i]) != ""
    ensures HeadlineLines(Join(lines, '\n')) == lines
  {
    SplitJoin(lines, '\n');
  }

  // ---------------------------------------------------------------------------
  // the fields the editor's sections edit

  /** The fields the editor edits. Every `onEdit` call site of the hero,
      features, booking and footer sections and of the styling panel issues
      one of them, except `HeroHeadline`: the hero edits its headline word by
      word (`hero.headline.i`), so the whole-headline field `hero.headline`
      is one `handleEdit` accepts, and treats specially, but no section issues. */
  datatype Field =
    | HeroHeadline | HeroHeadlineWord(word: nat) | HeroTitle | HeroDescription | HeroCtaText
    | FeaturesTitle | FeaturesDescription | CardTitle(card: nat) | CardDescription(card: nat)
    | BookingTitle | BookingDescription
    | FooterBrandName | FooterCompanyName | FooterTagline
    | PrimaryColor | AccentColor | HeadingFont | BodyFont

  function FieldKeys(f: Field): seq<string> {
    match f
    case HeroHeadline => ["hero", "headline"]
    case HeroHeadlineWord(i) => ["hero", "headline", NatToDecimal(i)]
    case HeroTitle => ["hero", "title"]
    case HeroDescription => ["hero", "description"]
    case HeroCtaText => ["hero", "ctaText"]
    case FeaturesTitle => ["features", "title"]
    case FeaturesDescription => ["features", "description"]
    case CardTitle(i) => ["features", "cards", NatToDecimal(i), "title"]
    case CardDescription(i) => ["features", "cards", NatToDecimal(i), "description"]
    case BookingTitle => ["bookingForm", "title"]
    case BookingDescription => ["bookingForm", "description"]
    case FooterBrandName => ["footer", "brandName"]
    case FooterCompanyName => ["footer", "companyName"]
    case FooterTagline => ["footer", "tagline"]
    case PrimaryColor => ["theme", "primaryColor"]
    case AccentColor => ["theme", "accentColor"]
    case HeadingFont => ["theme", "headingFont"]
    case BodyFont => ["theme", "bodyFont"]
  }

  /** The dotted field string the section passes, e.g. `features.cards.3.title`. */
  function FieldPath(f: Field): string {
    Join(FieldKeys(f), '.')
  }

  /** The indexed fields refer to an existing headline word or card. A
      JavaScript array holds at most 2^32 - 1 elements, so an existing
      position is never past `MaxArrayIndex`. */
  predicate FieldExists(c: Content, f: Field) {
    match f
    case HeroHeadlineWord(i) => i < |c.hero.headline| && i <= MaxArrayIndex
    case CardTitle(i) => i < |c.features.cards| && i <= MaxArrayIndex
    case CardDescription(i) => i < |c.features.cards| && i <= MaxArrayIndex
    case _ => true
  }

  /** The typed meaning of an edit of field `f` with text `t`. */
  function ApplyEdit(c: Content, f: Field, t: string): Content
    requires FieldExists(c, f)
  {
    var h := c.hero;
    var fs := c.features;
    match f
    case HeroHeadline => c.(hero := h.(headline := HeadlineLines(t)))
    case HeroHeadlineWord(i) => c.(hero := h.(headline := h.headline[i := t]))
    case HeroTitle => c.(hero := h.(title := t))
    case HeroDescription => c.(hero := h.(description := t))
    case HeroCtaText => c.(hero := h.(ctaText := t))
    case FeaturesTitle => c.(features := fs.(title := t))
    case FeaturesDescription => c.(features := fs.(description := t))
    case CardTitle(i) => c.(features := fs.(cards := fs.cards[i := fs.cards[i].(title := t)]))
    case CardDescription(i) => c.(features := fs.(cards := fs.cards[i := fs.cards[i].(description := t)]))
    case BookingTitle => c.(bookingForm := c.bookingForm.(title := t))
    case BookingDescription => c.(bookingForm := c.bookingForm.(description := t))
    case FooterBrandName => c.(footer := c.footer.(brandName := t))
    case FooterCompanyName => c.(footer := c.footer.(companyName := t))
    case FooterTagline => c.(footer := c.footer.(tagline := t))
    case PrimaryColor => c.(theme := c.theme.(primaryColor := t))
    case AccentColor => c.(theme := c.theme.(accentColor := t))
    case HeadingFont => c.(theme := c.theme.(headingFont := t))
    case BodyFont => c.(theme := c.theme.(bodyFont := t))
  }

  /** A decimal index key holds no dot. */
  lemma NoDotInDecimal(n: nat)
    ensures '.' !in NatToDecimal(n)
  {
    assert !IsDigit('.');
  }

  /** No key of a field path holds the separator. */
  lemma KeysHaveNoDot(f: Field)
    ensures |FieldKeys(f)| >= 2
    ensures forall i :: 0 <= i < |FieldKeys(f)| ==> '.' !in FieldKeys(f)[i]
  {
    match f {
      case HeroHeadlineWord(i) => NoDotInDecimal(i);
      case CardTitle(i) => NoDotInDecimal(i);
      case CardDescription(i) => NoDotInDecimal(i);
      case _ =>
    }
  }

  /** The dotted field string splits back into the field's keys. */
  lemma FieldPathSplits(f: Field)
    ensures Split(FieldPath(f), '.') == FieldKeys(f)
  {
    KeysHaveNoDot(f);
    SplitJoin(FieldKeys(f), '.');
  }

  /** Only `HeroHeadline` has the keys `hero`, `headline`. */
  lemma HeadlineKeysOnly(f: Field)
    ensures FieldKeys(f) == ["hero", "headline"] ==> f == HeroHeadline
  {
    match f {
      case HeroHeadlineWord(i) => assert |FieldKeys(f)| == 3;
      case CardTitle(i) => assert |FieldKeys(f)| == 4;
      case CardDescription(i) => assert |FieldKeys(f)| == 4;
      case _ =>
    }
  }

  lemma HeadlinePathText()
    ensures FieldPath(HeroHeadline) == HeadlineField
  {
    assert Join(["headline"], '.') == "headline";
  }

  /** Only the field `HeroHeadline` has the path `hero.headline`. */
  lemma HeadlineOnlyPath(f: Field)
    ensures FieldPath(f) == HeadlineField <==> f == HeroHeadline
  {
    HeadlinePathText();
    if FieldPath(f) == HeadlineField {
      FieldPathSplits(f);
      FieldPathSplits(HeroHeadline);
      HeadlineKeysOnly(f);
    }
  }

  /** Every field a section issues, that is every field but `HeroHeadline`,
      is stored exactly as typed: the headline special case never applies to it. */
  lemma IssuedFieldsStoreText(f: Field, t: string)
    requires f != HeroHeadline
    ensures StoredValue(FieldPath(f), Text(t)) == Str(t)
  {
    HeadlineOnlyPath(f);
  }

  /** Assigning a field of an object. */
  lemma SetObjField(m: map<string, Json>, k: string, v: Json)
    ensures SetPath(Obj(m), [k], v) == Ok(Obj(m[k := v]))
  {
  }

  /** Assigning an existing array position through its decimal index key. */
  lemma SetArrIndex(items: seq<Json>, i: nat, v: Json)
    requires i < |items| && i <= MaxArrayIndex
    ensures SetPath(Arr(items), [NatToDecimal(i)], v) == Ok(Arr(items[i := v]))
  {
    DecimalRoundTrip(i);
    assert IsIndexKey(NatToDecimal(i));
  }

  /** An edit below an existing child puts the edited child back in its place. */
  lemma SetPathInto(j: Json, k: string, rest: seq<string>, v: Json, r: Json)
    requires Child(j, k).Some? && |rest| >= 1
    requires SetPath(Child(j, k).value, rest, v) == Ok(r)
    ensures SetPath(j, [k] + rest, v) == Ok(Replace(j, k, r))
  {
    assert ([k] + rest)[1..] == rest;
  }

  /** The value the editor stores for field `f` given text `t`. */
  function FieldValue(f: Field, t: string): Json {
    if f.HeroHeadline? then Arr(StrList(HeadlineLines(t))) else Str(t)
  }

  predicate IsHeroField(f: Field) {
    f.HeroHeadline? || f.HeroHeadlineWord? || f.HeroTitle? || f.HeroDescription? || f.HeroCtaText?
  }

  predicate IsFeaturesField(f: Field) {
    f.FeaturesTitle? || f.FeaturesDescription? || f.CardTitle? || f.CardDescription?
  }

  /** An edit of a hero field, applied to the hero's tree, encodes the edited hero. */
  lemma HeroEdit(c: Content, f: Field, t: string)
    requires IsHeroField(f) && FieldExists(c, f)
    ensures SetPath(HeroJson(c.hero), FieldKeys(f)[1..], FieldValue(f, t)) == Ok(HeroJson(ApplyEdit(c, f, t).hero))
  {
    match f {
      case HeroHeadlineWord(i) => HeadlineWordEdit(c.hero, i, t);
      case HeroHeadline => HeroSlotEdit(c.hero, "headline", Arr(StrList(HeadlineLines(t))), c.hero.(headline := HeadlineLines(t)));
      case HeroTitle => HeroSlotEdit(c.hero, "title", Str(t), c.hero.(title := t));
      case HeroDescription => HeroSlotEdit(c.hero, "description", Str(t), c.hero.(description := t));
      case HeroCtaText => HeroSlotEdit(c.hero, "ctaText", Str(t), c.hero.(ctaText := t));
    }
  }

  /** Assigning one slot of the hero object gives the encoding of the hero
      whose encoding has that slot replaced. */
  lemma HeroSlotEdit(h: Hero, k: string, v: Json, h': Hero)
    requires HeroJson(h').fields == HeroJson(h).fields[k := v]
    ensures SetPath(HeroJson(h), [k], v) == Ok(HeroJson(h'))
  {
    SetObjField(HeroJson(h).fields, k, v);
  }

  /** Replacing headline word `i` through the path `headline.i`. */
  lemma HeadlineWordEdit(h: Hero, i: nat, t: string)
    requires i < |h.headline| && i <= MaxArrayIndex
    ensures SetPath(HeroJson(h), ["headline", NatToDecimal(i)], Str(t))
              == Ok(HeroJson(h.(headline := h.headline[i := t])))
  {
    var d := NatToDecimal(i);
    var hm := HeroJson(h).fields;
    var hm' := HeroJson(h.(headline := h.headline[i := t])).fields;
    var items := StrList(h.headline);
    SetArrIndex(items, i, Str(t));
    SetPathInto(HeroJson(h), "headline", [d], Str(t), Arr(items[i := Str(t)]));
    assert ["headline"] + [d] == ["headline", d];
    assert items[i := Str(t)] == StrList(h.headline[i := t]);
    assert hm["headline" := Arr(items[i := Str(t)])].Keys == hm'.Keys;
    assert hm["headline" := Arr(items[i := Str(t)])] == hm';
  }

  /** The same for a card: editing its title or description field. */
  lemma CardEdit(card: Card, k: string, t: string)
    requires k == "title" || k == "description"
    ensures SetPath(CardJson(card), [k], Str(t))
              == Ok(CardJson(if k == "title" then card.(title := t) else card.(description := t)))
  {
    var m := CardJson(card).fields;
    SetObjField(m, k, Str(t));
    var m' := CardJson(if k == "title" then card.(title := t) else card.(description := t)).fields;
    assert m[k := Str(t)].Keys == m'.Keys;
    assert m[k := Str(t)] == m';
  }

  /** An edit of a features field, applied to the features tree, encodes the edited features. */
  lemma FeaturesEdit(c: Content, f: Field, t: string)
    requires IsFeaturesField(f) && FieldExists(c, f)
    ensures SetPath(FeaturesJson(c.features), FieldKeys(f)[1..], Str(t)) == Ok(FeaturesJson(ApplyEdit(c, f, t).features))
  {
    var fs := c.features;
    var fm := FeaturesJson(fs).fields;
    var fs' := ApplyEdit(c, f, t).features;
    var fm' := FeaturesJson(fs').fields;
    match f {
      case FeaturesTitle =>
        SetObjField(fm, "title", Str(t));
        assert fm["title" := Str(t)].Keys == fm'.Keys;
        assert fm["title" := Str(t)] == fm';
      case FeaturesDescription =>
        SetObjField(fm, "description", Str(t));
        assert fm["description" := Str(t)].Keys == fm'.Keys;
        assert fm["description" := Str(t)] == fm';
      case CardTitle(i) =>
        CardsEdit(fs, i, "title", t);
      case CardDescription(i) =>
        CardsEdit(fs, i, "description", t);
    }
  }

  /** Editing a field of card `i` through the path `cards.i.k`. */
  lemma CardsEdit(fs: Features, i: nat, k: string, t: string)
    requires i < |fs.cards| && i <= MaxArrayIndex && (k == "title" || k == "description")
    ensures var card' := if k == "title" then fs.cards[i].(title := t) else fs.cards[i].(description := t);
            SetPath(FeaturesJson(fs), ["cards", NatToDecimal(i), k], Str(t))
              == Ok(FeaturesJson(fs.(cards := fs.cards[i := card'])))
  {
    var card' := if k == "title" then fs.cards[i].(title := t) else fs.cards[i].(description := t);
    var d := NatToDecimal(i);
    var items := CardList(fs.cards);
    CardListEdit(fs.cards, i, k, t);
    SetPathInto(FeaturesJson(fs), "cards", [d, k], Str(t), Arr(items[i := CardJson(card')]));
    assert ["cards"] + [d, k] == ["cards", d, k];
    var fm := FeaturesJson(fs).fields;
    assert fm["cards" := Arr(CardList(fs.cards[i := card']))].Keys == FeaturesJson(fs.(cards := fs.cards[i := card'])).fields.Keys;
    assert fm["cards" := Arr(CardList(fs.cards[i := card']))] == FeaturesJson(fs.(cards := fs.cards[i := card'])).fields;
  }

  /** Editing field `k` of card `i` inside the card list, through the path `i.k`. */
  lemma CardListEdit(cards: seq<Card>, i: nat, k: string, t: string)
    requires i < |cards| && i <= MaxArrayIndex && (k == "title" || k == "description")
    ensures var card' := if k == "title" then cards[i].(title := t) else cards[i].(description := t);
            && CardList(cards)[i := CardJson(card')] == CardList(cards[i := card'])
            && SetPath(Arr(CardList(cards)), [NatToDecimal(i), k], Str(t)) == Ok(Arr(CardList(cards)[i := CardJson(card')]))
  {
    var card' := if k == "title" then cards[i].(title := t) else cards[i].(description := t);
    var d := NatToDecimal(i);
    DecimalRoundTrip(i);
    assert IsIndexKey(d);
    var items := CardList(cards);
    CardEdit(cards[i], k, t);
    assert Child(Arr(items), d) == Some(CardJson(cards[i]));
    SetPathInto(Arr(items), d, [k], Str(t), CardJson(card'));
    assert items[i := CardJson(card')] == CardList(cards[i := card']);
  }

  /** An edit of a booking, footer or theme field, applied to that section's tree. */
  lemma BookingFormEdit(c: Content, f: Field, t: string)
    requires f.BookingTitle? || f.BookingDescription?
    ensures SetPath(BookingFormJson(c.bookingForm), FieldKeys(f)[1..], Str(t))
              == Ok(BookingFormJson(ApplyEdit(c, f, t).bookingForm))
  {
    var k := FieldKeys(f)[1];
    assert FieldKeys(f)[1..] == [k];
    var m := BookingFormJson(c.bookingForm).fields;
    SetObjField(m, k, Str(t));
    assert m[k := Str(t)].Keys == BookingFormJson(ApplyEdit(c, f, t).bookingForm).fields.Keys;
    assert m[k := Str(t)] == BookingFormJson(ApplyEdit(c, f, t).bookingForm).fields;
  }

  lemma FooterEdit(c: Content, f: Field, t: string)
    requires f.FooterBrandName? || f.FooterCompanyName? || f.FooterTagline?
    ensures SetPath(FooterJson(c.footer), FieldKeys(f)[1..], Str(t)) == Ok(FooterJson(ApplyEdit(c, f, t).footer))
  {
    var k := FieldKeys(f)[1];
    assert FieldKeys(f)[1..] == [k];
    var m := FooterJson(c.footer).fields;
    SetObjField(m, k, Str(t));
    assert m[k := Str(t)].Keys == FooterJson(ApplyEdit(c, f, t).footer).fields.Keys;
    assert m[k := Str(t)] == FooterJson(ApplyEdit(c, f, t).footer).fields;
  }

  lemma ThemeEdit(c: Content, f: Field, t: string)
    requires f.PrimaryColor? || f.AccentColor? || f.HeadingFont? || f.BodyFont?
    ensures SetPath(ThemeJson(c.theme), FieldKeys(f)[1..], Str(t)) == Ok(ThemeJson(ApplyEdit(c, f, t).theme))
  {
    var k := FieldKeys(f)[1];
    assert FieldKeys(f)[1..] == [k];
    var m := ThemeJson(c.theme).fields;
    SetObjField(m, k, Str(t));
    assert m[k := Str(t)].Keys == ThemeJson(ApplyEdit(c, f, t).theme).fields.Keys;
    assert m[k := Str(t)] == ThemeJson(ApplyEdit(c, f, t).theme).fields;
  }

  lemma WithHero(c: Content, h: Hero)
    ensures Obj(ToJson(c).fields["hero" := HeroJson(h)]) == ToJson(c.(hero := h))
  {
    var a := ToJson(c).fields["hero" := HeroJson(h)];
    var b := ToJson(c.(hero := h)).fields;
    assert a.Keys == b.Keys;
    assert a == b;
  }

  lemma WithFeatures(c: Content, f: Features)
    ensures Obj(ToJson(c).fields["features" := FeaturesJson(f)]) == ToJson(c.(features := f))
  {
    var a := ToJson(c).fields["features" := FeaturesJson(f)];
    var b := ToJson(c.(features := f)).fields;
    assert a.Keys == b.Keys;
    assert a == b;
  }

  lemma WithBookingForm(c: Content, b: BookingForm)
    ensures Obj(ToJson(c).fields["bookingForm" := BookingFormJson(b)]) == ToJson(c.(bookingForm := b))
  {
    var a := ToJson(c).fields["bookingForm" := BookingFormJson(b)];
    var b' := ToJson(c.(bookingForm := b)).fields;
    assert a.Keys == b'.Keys;
    assert a == b';
  }

  lemma WithFooter(c: Content, f: Footer)
    ensures Obj(ToJson(c).fields["footer" := FooterJson(f)]) == ToJson(c.(footer := f))
  {
    var a := ToJson(c).fields["footer" := FooterJson(f)];
    var b := ToJson(c.(footer := f)).fields;
    assert a.Keys == b.Keys;
    assert a == b;
  }

  lemma WithTheme(c: Content, t: Theme)
    ensures Obj(ToJson(c).fields["theme" := ThemeJson(t)]) == ToJson(c.(theme := t))
  {
    var a := ToJson(c).fields["theme" := ThemeJson(t)];
    var b := ToJson(c.(theme := t)).fields;
    assert a.Keys == b.Keys;
    assert a == b;
  }

  /** A section edit put back under the section's key of an object tree. */
  lemma SectionInto(m: map<string, Json>, keys: seq<string>, v: Json, section': Json)
    requires |keys| >= 2 && keys[0] in m
    requires SetPath(m[keys[0]], keys[1..], v) == Ok(section')
    ensures SetPath(Obj(m), keys, v) == Ok(Obj(m[keys[0] := section']))
  {
    assert keys == [keys[0]] + keys[1..];
    SetPathInto(Obj(m), keys[0], keys[1..], v, section');
  }

  /** Applying an edit at the top level: the section edit put back into the content tree. */
  lemma TopLevelEdit(c: Content, f: Field, t: string)
    requires FieldExists(c, f)
    ensures SetPath(ToJson(c), FieldKeys(f), FieldValue(f, t)) == Ok(ToJson(ApplyEdit(c, f, t)))
  {
    var c' := ApplyEdit(c, f, t);
    ToJsonSections(c);
    if IsHeroField(f) {
      HeroEdit(c, f, t);
      WithHero(c, c'.hero);
      SectionInto(ToJson(c).fields, FieldKeys(f), FieldValue(f, t), HeroJson(c'.hero));
    } else if IsFeaturesField(f) {
      FeaturesEdit(c, f, t);
      WithFeatures(c, c'.features);
      SectionInto(ToJson(c).fields, FieldKeys(f), FieldValue(f, t), FeaturesJson(c'.features));
    } else if f.BookingTitle? || f.BookingDescription? {
      BookingFormEdit(c, f, t);
      WithBookingForm(c, c'.bookingForm);
      SectionInto(ToJson(c).fields, FieldKeys(f), FieldValue(f, t), BookingFormJson(c'.bookingForm));
    } else if f.FooterBrandName? || f.FooterCompanyName? || f.FooterTagline? {
      FooterEdit(c, f, t);
      WithFooter(c, c'.footer);
      SectionInto(ToJson(c).fields, FieldKeys(f), FieldValue(f, t), FooterJson(c'.footer));
    } else {
      ThemeEdit(c, f, t);
      WithTheme(c, c'.theme);
      SectionInto(ToJson(c).fields, FieldKeys(f), FieldValue(f, t), ThemeJson(c'.theme));
    }
  }

  /** Every edit the editor issues, on any content of the `CMSContent` shape
      and for an existing headline word or card, succeeds and yields exactly
      the encoding of the content with that one field replaced; so the edited
      state still has the schema's shape and decodes to the edited content. */
  lemma EditorEditKeepsSchema(c: Content, f: Field, t: string)
    requires FieldExists(c, f)
    ensures HandleEdit(Some(ToJson(c)), FieldPath(f), Text(t)) == Ok(Some(ToJson(ApplyEdit(c, f, t))))
    ensures FromJson(HandleEdit(Some(ToJson(c)), FieldPath(f), Text(t)).value.value) == Some(ApplyEdit(c, f, t))
  {
    FieldPathSplits(f);
    HeadlineOnlyPath(f);
    assert StoredValue(FieldPath(f), Text(t)) == FieldValue(f, t);
    TopLevelEdit(c, f, t);
    ContentRoundTrip(ApplyEdit(c, f, t));
  }

  // ---------------------------------------------------------------------------
  // fonts offered by the styling panel

  const FontOptions: seq<string> := [
    "Inter", "Roboto", "Open Sans", "Lato", "Montserrat",
    "Poppins", "Playfair Display", "Arial", "Helvetica",
    "Georgia", "Times New Roman", "Courier New", "Verdana", "Trebuchet MS"
  ]

  /** The default heading and body fonts are among the offered fonts. */
  lemma DefaultFontsOffered()
    ensures DefaultContent.theme.headingFont in FontOptions
    ensures DefaultContent.theme.bodyFont in FontOptions
  {
    assert FontOptions[0] == "Inter";
  }

  // ---------------------------------------------------------------------------
  // drag-to-close of the styling panel

  /** `isDragging`, `dragStartY`, `dragCurrentY` and `stylingPanelOpen`. */
  datatype DragState = DragState(dragging: bool, startY: int, currentY: int, panelOpen: bool)

  /** Pointer events on the drag handle (clientY of the touch or mouse), the
      toggle button and the backdrop. */
  datatype PanelEvent = DragStart(y: int) | DragMove(y: int) | DragEnd | ToggleButton | BackdropClick

  const InitialDrag := DragState(false, 0, 0, false)

  /** How far, in pixels, a drag must go down to close the panel. */
  const CloseThreshold := 100

  function PanelStep(s: DragState, e: PanelEvent): (r: DragState)
    // a press records the pointer as both start and current position
    ensures e.DragStart? ==> r == s.(dragging := true, startY := e.y, currentY := e.y)
    // a move outside a drag, or not below the start, changes nothing
    ensures e.DragMove? && (!s.dragging || e.y <= s.startY) ==> r == s
    ensures e.DragMove? && s.dragging && e.y > s.startY ==> r == s.(currentY := e.y)
    // a release outside a drag changes nothing; otherwise it closes the panel
    // exactly when the drag went more than the threshold down, and resets
    ensures e.DragEnd? && !s.dragging ==> r == s
    ensures e.DragEnd? && s.dragging ==>
              && !r.dragging && r.startY == 0 && r.currentY == 0
              && (r.panelOpen <==> s.panelOpen && s.currentY - s.startY <= CloseThreshold)
  {
    match e
    case DragStart(y) => s.(startY := y, currentY := y, dragging := true)
    case DragMove(y) =>
      if !s.dragging then s
      else if y - s.startY > 0 then s.(currentY := y)
      else s
    case DragEnd =>
      if !s.dragging then s
      else
        var closed := if s.currentY - s.startY > CloseThreshold then s.(panelOpen := false) else s;
        closed.(dragging := false, startY := 0, currentY := 0)
    case ToggleButton => s.(panelOpen := !s.panelOpen)
    case BackdropClick => s.(panelOpen := false)
  }

  function PanelRun(s: DragState, es: seq<PanelEvent>): DragState
    decreases |es|
  {
    if |es| == 0 then s else PanelRun(PanelStep(s, es[0]), es[1..])
  }

  /** While dragging the pointer is never above the start; otherwise both are 0. */
  predicate DragInv(s: DragState) {
    && (s.dragging ==> s.currentY >= s.startY)
    && (!s.dragging ==> s.startY == 0 && s.currentY == 0)
  }

  /** The panel's vertical offset: `max(0, current - start)` while dragging, else 0. */
  function PanelOffset(s: DragState): (r: int)
    ensures r >= 0
    ensures !s.dragging ==> r == 0
    // with the invariant, the offset is exactly the distance dragged down
    ensures DragInv(s) && s.dragging ==> r == s.currentY - s.startY
  {
    if s.dragging then (if s.currentY - s.startY > 0 then s.currentY - s.startY else 0) else 0
  }

  /** From the initial state, any event sequence keeps the drag invariant, so
      the rendered offset is exactly how far the pointer went down and never negative. */
  lemma {:induction false} PanelRunKeepsInv(s: DragState, es: seq<PanelEvent>)
    requires DragInv(s)
    ensures DragInv(PanelRun(s, es))
    ensures PanelOffset(PanelRun(s, es)) >= 0
    ensures PanelRun(s, es).dragging ==>
              PanelOffset(PanelRun(s, es)) == PanelRun(s, es).currentY - PanelRun(s, es).startY
    decreases |es|
  {
    if |es| > 0 {
      PanelRunKeepsInv(PanelStep(s, es[0]), es[1..]);
    }
  }

  /** The initial state satisfies the drag invariant. */
  lemma InitialDragInv()
    ensures DragInv(InitialDrag) && !InitialDrag.panelOpen
  {
  }
}

=== FILE: FeatureGrid.dfy ===
/** The pure rules of components/ui/features-section-demo-1.tsx: decoding
    the theme colour with `hexToRgba`, choosing each card's decorative icon,
    and placing the highlighted squares of the background grid. */
module FeatureGrid {
  import opened Wrappers
  import opened Strings
  import opened CmsContent

  // ---------------------------------------------------------------------------
  // parseInt(s, 16)

  predicate IsHexDigit(c: char) {
    ('0' <= c <= '9') || ('a' <= c <= 'f') || ('A' <= c <= 'F')
  }

  function HexDigitValue(c: char): (d: nat)
    requires IsHexDigit(c)
    ensures d < 16
  {
    if '0' <= c <= '9' then c as int - '0' as int
    else if 'a' <= c <= 'f' then c as int - 'a' as int + 10
    else c as int - 'A' as int + 10
  }

  /** The longest prefix of `s` made of hexadecimal digits. */
  function HexPrefix(s: string): (p: string)
    ensures |p| <= |s| && p == s[..|p|]
    ensures forall i :: 0 <= i < |p| ==> IsHexDigit(p[i])
    ensures |p| < |s| ==> !IsHexDigit(s[|p|])
  {
    if |s| > 0 && IsHexDigit(s[0]) then [s[0]] + HexPrefix(s[1..]) else ""
  }

  /** The number a string of hexadecimal digits denotes. */
  function HexValue(s: string): nat
    requires forall i :: 0 <= i < |s| ==> IsHexDigit(s[i])
  {
    if |s| == 0 then 0 else 16 * HexValue(s[..|s| - 1]) + HexDigitValue(s[|s| - 1])
  }

  /** `parseInt(s, 16)`: leading whitespace skipped, an optional sign, an
      optional `0x`/`0X` prefix, then the longest run of hexadecimal digits;
      None stands for `NaN` (no digit at all). */
  function ParseIntHex(s: string): (r: Option<int>)
    // no digit at all is NaN
    ensures |s| == 0 ==> r == None
  {
    var t := TrimStart(s);
    var negative := |t| > 0 && t[0] == '-';
    var u := if |t| > 0 && (t[0] == '-' || t[0] == '+') then t[1..] else t;
    var v := if |u| >= 2 && u[0] == '0' && (u[1] == 'x' || u[1] == 'X') then u[2..] else u;
    var digits := HexPrefix(v);
    if |digits| == 0 then None
    else
      var n: int := HexValue(digits);
      Some(if negative then -n else n)
  }

  /** A non-empty run of hexadecimal digits has no whitespace, sign or `0x`
      prefix to skip and is read in full: its value in base 16. */
  lemma ParseDigitRun(s: string)
    requires |s| > 0 && forall i :: 0 <= i < |s| ==> IsHexDigit(s[i])
    ensures ParseIntHex(s) == Some(HexValue(s))
  {
    HexDigitIsPlain(s[0]);
    assert TrimStart(s) == s;
    if |s| >= 2 {
      HexDigitIsPlain(s[1]);
    }
    ParsePlain(s);
    DigitRunPrefix(s);
  }

  /** Text that starts with no whitespace, sign or `0x` prefix is read from its first character. */
  lemma ParsePlain(s: string)
    requires |s| > 0 && TrimStart(s) == s && s[0] != '-' && s[0] != '+'
    requires !(|s| >= 2 && s[0] == '0' && (s[1] == 'x' || s[1] == 'X'))
    ensures ParseIntHex(s) == if |HexPrefix(s)| == 0 then None else Some(HexValue(HexPrefix(s)) as int)
  {
  }

  /** A hexadecimal digit is neither whitespace, a sign nor the `x` of a prefix. */
  lemma HexDigitIsPlain(c: char)
    requires IsHexDigit(c)
    ensures !IsWhitespace(c) && c != '-' && c != '+' && c != 'x' && c != 'X'
  {
  }

  /** A run of digits is its own longest digit prefix. */
  lemma DigitRunPrefix(s: string)
    requires forall i :: 0 <= i < |s| ==> IsHexDigit(s[i])
    ensures HexPrefix(s) == s
  {
  }

  /** `s.slice(start, end)` for non-negative bounds: clamped to the string. */
  function Slice(s: string, start: nat, end: nat): (r: string)
    ensures |r| <= |s|
    ensures start <= end <= |s| ==> r == s[start..end]
    ensures |s| <= start ==> r == ""
  {
    var a := if start <= |s| then start else |s|;
    var b := if end <= |s| then end else |s|;
    if a <= b then s[a..b] else ""
  }

  // ---------------------------------------------------------------------------
  // hexToRgba

  /** Template-literal text of a number parsed with `parseInt`. */
  function NumberText(n: Option<int>): string {
    match n
    case None => "NaN"
    case Some(v) => IntToDecimal(v)
  }

  /** The three colour components: characters 1-2, 3-4 and 5-6, each read in base 16. */
  function Components(hex: string): (Option<int>, Option<int>, Option<int>) {
    (ParseIntHex(Slice(hex, 1, 3)), ParseIntHex(Slice(hex, 3, 5)), ParseIntHex(Slice(hex, 5, 7)))
  }

  /** `hexToRgba(hex, alpha)`, identical in `Grid` and in `GridPattern`; the
      alpha is passed as the text JavaScript prints for it. */
  function HexToRgba(hex: string, alpha: string): string {
    RgbaOf(Components(hex), alpha)
  }

  /** The CSS text for three parsed components: an `rgba(…)` call whose
      last argument is `alpha`, whatever the components are. */
  function RgbaOf(parts: (Option<int>, Option<int>, Option<int>), alpha: string): (c: string)
    ensures |c| > 6 + |alpha| && c[..5] == "rgba("
    ensures c[|c| - |alpha| - 3..] == ", " + alpha + ")"
  {
    RgbaText(NumberText(parts.0), NumberText(parts.1), NumberText(parts.2), alpha)
  }

  /** The CSS text `rgba(r, g, b, alpha)` for already printed components. */
  function RgbaText(r: string, g: string, b: string, alpha: string): (c: string)
    ensures |c| > 6 + |alpha| && c[..5] == "rgba("
    ensures c[|c| - |alpha| - 3..] == ", " + alpha + ")"
  {
    var c := "rgba(" + r + ", " + g + ", " + b + ", " + alpha + ")";
    assert c == ("rgba(" + r + ", " + g + ", " + b) + (", " + alpha + ")");
    c
  }

  /** A `#rrggbb` colour. */
  predicate IsHexColor(s: string) {
    |s| == 7 && s[0] == '#' && forall i :: 1 <= i < 7 ==> IsHexDigit(s[i])
  }

  /** The byte two hexadecimal digits denote. */
  function ByteOf(hi: char, lo: char): (b: nat)
    requires IsHexDigit(hi) && IsHexDigit(lo)
    ensures b < 256
  {
    16 * HexDigitValue(hi) + HexDigitValue(lo)
  }

  /** `parseInt` on two hexadecimal digits is the byte they denote. */
  lemma ParseTwoHexDigits(s: string)
    requires |s| == 2 && IsHexDigit(s[0]) && IsHexDigit(s[1])
    ensures ParseIntHex(s) == Some(ByteOf(s[0], s[1]))
  {
    assert !IsWhitespace(s[0]);
    assert TrimStart(s) == s;
    assert s[0] != '-' && s[0] != '+';
    assert !(s[0] == '0' && (s[1] == 'x' || s[1] == 'X'));
    TwoHexDigits(s);
  }

  lemma TwoHexDigits(s: string)
    requires |s| == 2 && IsHexDigit(s[0]) && IsHexDigit(s[1])
    ensures HexPrefix(s) == s
    ensures HexValue(s) == ByteOf(s[0], s[1])
  {
    assert s[1..][1..] == [];
    assert HexPrefix(s[1..]) == [s[1]];
    assert s[..1] == [s[0]];
    assert HexValue(s[..1]) == HexDigitValue(s[0]);
  }

  /** A well-formed colour decodes to three bytes, read from its digit pairs. */
  lemma WellFormedDecodes(hex: string)
    requires IsHexColor(hex)
    ensures Components(hex) == (Some(ByteOf(hex[1], hex[2])), Some(ByteOf(hex[3], hex[4])), Some(ByteOf(hex[5], hex[6])))
  {
    DigitPair(hex, 1);
    DigitPair(hex, 3);
    DigitPair(hex, 5);
  }

  lemma DigitPair(hex: string, k: nat)
    requires IsHexColor(hex) && 1 <= k <= 5
    ensures ParseIntHex(Slice(hex, k, k + 2)) == Some(ByteOf(hex[k], hex[k + 1]))
  {
    var s := Slice(hex, k, k + 2);
    assert s == hex[k..k + 2];
    assert s[0] == hex[k] && s[1] == hex[k + 1];
    ParseTwoHexDigits(s);
  }

  /** The text of a well-formed colour: `rgba(r, g, b, alpha)` with the bytes
      in decimal and `", "` between the parts. */
  lemma RgbaShape(hex: string, alpha: string)
    requires IsHexColor(hex)
    ensures HexToRgba(hex, alpha) ==
              "rgba(" + NatToDecimal(ByteOf(hex[1], hex[2])) + ", " + NatToDecimal(ByteOf(hex[3], hex[4]))
              + ", " + NatToDecimal(ByteOf(hex[5], hex[6])) + ", " + alpha + ")"
  {
    WellFormedDecodes(hex);
  }

  /** A colour of five characters or fewer has no blue digits: that part prints as `NaN`. */
  lemma ShortColourHasNoBlue(hex: string)
    requires |hex| <= 5
    ensures Components(hex).2 == None
  {
    assert Slice(hex, 5, 7) == "";
  }

  // ---------------------------------------------------------------------------
  // encoding bytes as colours (the partner of decoding)

  const HexDigits: string := "0123456789abcdef"

  function HexPair(b: nat): (s: string)
    requires b < 256
    ensures |s| == 2 && IsHexDigit(s[0]) && IsHexDigit(s[1])
  {
    [HexDigits[b / 16], HexDigits[b % 16]]
  }

  /** `#rrggbb` in lower case. */
  function ToHexColor(r: nat, g: nat, b: nat): (s: string)
    requires r < 256 && g < 256 && b < 256
    ensures IsHexColor(s)
  {
    "#" + HexPair(r) + HexPair(g) + HexPair(b)
  }

  lemma HexDigitRoundTrip(d: nat)
    requires d < 16
    ensures IsHexDigit(HexDigits[d]) && HexDigitValue(HexDigits[d]) == d
  {
  }

  lemma HexPairRoundTrip(b: nat)
    requires b < 256
    ensures ByteOf(HexPair(b)[0], HexPair(b)[1]) == b
  {
    HexDigitRoundTrip(b / 16);
    HexDigitRoundTrip(b % 16);
  }

  /** Decoding an encoded colour gives its bytes back. */
  lemma ColourRoundTrip(r: nat, g: nat, b: nat)
    requires r < 256 && g < 256 && b < 256
    ensures Components(ToHexColor(r, g, b)) == (Some(r), Some(g), Some(b))
  {
    var s := ToHexColor(r, g, b);
    WellFormedDecodes(s);
    ColourChars(r, g, b);
    HexPairRoundTrip(r);
    HexPairRoundTrip(g);
    HexPairRoundTrip(b);
  }

  lemma ColourChars(r: nat, g: nat, b: nat)
    requires r < 256 && g < 256 && b < 256
    ensures var s := ToHexColor(r, g, b);
            && s[1] == HexPair(r)[0] && s[2] == HexPair(r)[1]
            && s[3] == HexPair(g)[0] && s[4] == HexPair(g)[1]
            && s[5] == HexPair(b)[0] && s[6] == HexPair(b)[1]
  {
  }

  /** The default primary and accent colours decode to (139, 92, 246) and (124, 58, 237). */
  lemma DefaultColours()
    ensures IsHexColor(DefaultContent.theme.primaryColor)
    ensures Components(DefaultContent.theme.primaryColor) == (Some(139), Some(92), Some(246))
    ensures IsHexColor(DefaultContent.theme.accentColor)
    ensures Components(DefaultContent.theme.accentColor) == (Some(124), Some(58), Some(237))
  {
    var p := DefaultContent.theme.primaryColor;
    var a := DefaultContent.theme.accentColor;
    assert p == ToHexColor(139, 92, 246);
    assert a == ToHexColor(124, 58, 237);
    ColourRoundTrip(139, 92, 246);
    ColourRoundTrip(124, 58, 237);
  }

  // ---------------------------------------------------------------------------
  // icons

  /** The react-icons glyphs the section uses. */
  datatype Icon =
    | CalendarAlt | CalendarCheck | Bell | Clock | SyncAlt | MobileAlt | ShieldAlt | RegClock
    | Bolt | CalendarDay | ArrowsAltH

  datatype IconElement = IconElement(icon: Icon, size: int)

  /** JavaScript's `a % 8`: the remainder takes the sign of `a`, so for a
      negative `a` it is the Euclidean remainder shifted down by 8, or 0. */
  function JsRem8(a: int): (r: int)
    ensures a >= 0 ==> r == a % 8
    ensures a < 0 ==> -8 < r <= 0 && (r == 0 <==> a % 8 == 0) && (r != 0 ==> r == a % 8 - 8)
  {
    if a >= 0 then a % 8 else -((-a) % 8)
  }

  /** `getIconByIndexRaw(index, size)`: a switch on `index % 8`; every value
      but 0..6, the negative remainders included, takes the default branch. */
  function IconByIndexRaw(index: int, size: int): (e: IconElement)
    ensures e.size == size
    ensures index >= 0 ==> (e.icon == RegClock <==> index % 8 == 7)
    ensures index < 0 ==> (e.icon == CalendarAlt <==> index % 8 == 0)
  {
    var icon := match JsRem8(index)
                case 0 => CalendarAlt
                case 1 => CalendarCheck
                case 2 => Bell
                case 3 => Clock
                case 4 => SyncAlt
                case 5 => MobileAlt
                case 6 => ShieldAlt
                case _ => RegClock;
    IconElement(icon, size)
  }

  /** The icon depends only on the index modulo 8; the eight residues give
      eight different icons, the last of them the clock of the default branch. */
  lemma IconByIndexResidues(i: int, j: int, size: int)
    requires i >= 0 && j >= 0
    ensures IconByIndexRaw(i, size) == IconByIndexRaw(i % 8, size)
    ensures IconByIndexRaw(i, size).size == size
    ensures IconByIndexRaw(i, size).icon == IconByIndexRaw(j, size).icon <==> i % 8 == j % 8
    ensures i % 8 == 7 <==> IconByIndexRaw(i, size).icon == RegClock
  {
  }

  /** A negative index takes the default icon unless it is a multiple of 8. */
  lemma NegativeIndexIcon(i: int, size: int)
    requires i < 0
    ensures IconByIndexRaw(i, size).icon == (if i % 8 == 0 then CalendarAlt else RegClock)
  {
  }

  const BigIconSize := 200

  /** `getIconForFeature(title, index)`: the first phrase, in priority order,
      that the lower-cased title contains picks the icon; otherwise the index does. */
  function IconForFeature(title: string, index: int): (e: IconElement)
    ensures e.size == BigIconSize
  {
    var normalized := Lower(title);
    if Contains(normalized, "instant confirmation") then IconElement(Bolt, BigIconSize)
    else if Contains(normalized, "automatic reminders") then IconElement(CalendarDay, BigIconSize)
    else if Contains(normalized, "flexible time slots") then IconElement(ArrowsAltH, BigIconSize)
    else if Contains(normalized, "24/7 availability") then IconElement(RegClock, BigIconSize)
    else IconByIndexRaw(index, BigIconSize)
  }

  /** The first phrase found, in priority order, picks the icon. Each of the
      first three phrase icons appears exactly when its phrase is the first
      one found, since the index rule never yields them. The clock of the
      fourth phrase is also what the index rule gives at residue 7, so that
      case holds in one direction only. A title with none of the four phrases
      gets the index icon, and the size is always 200. */
  lemma IconForFeaturePriority(title: string, index: int)
    ensures var n := Lower(title);
            var r := IconForFeature(title, index);
            && r.size == 200
            && (r.icon == Bolt <==> Contains(n, "instant confirmation"))
            && (r.icon == CalendarDay <==> !Contains(n, "instant confirmation") && Contains(n, "automatic reminders"))
            && (r.icon == ArrowsAltH <==>
                  !Contains(n, "instant confirmation") && !Contains(n, "automatic reminders")
                  && Contains(n, "flexible time slots"))
            && (!Contains(n, "instant confirmation") && !Contains(n, "automatic reminders")
                && !Contains(n, "flexible time slots") && Contains(n, "24/7 availability")
                ==> r == IconElement(RegClock, 200))
            && (!Contains(n, "instant confirmation") && !Contains(n, "automatic reminders")
                && !Contains(n, "flexible time slots") && !Contains(n, "24/7 availability")
                ==> r == IconByIndexRaw(index, 200))
  {
  }

  /** A string never contains a phrase with a character it lacks. */
  lemma {:induction false} MissingCharNotContained(s: string, t: string, c: char)
    requires c in t && c !in s
    ensures !Contains(s, t)
    decreases |s|
  {
    if |s| > 0 {
      assert forall i :: 0 <= i < |s[1..]| ==> s[1..][i] == s[i + 1];
      MissingCharNotContained(s[1..], t, c);
    }
  }

  /** A title whose lower-cased form lacks some character of each of the four
      phrases gets the icon of its index. */
  lemma IndexIconFallback(title: string, index: int, a: char, b: char, c: char, d: char)
    requires a in "instant confirmation" && a !in Lower(title)
    requires b in "automatic reminders" && b !in Lower(title)
    requires c in "flexible time slots" && c !in Lower(title)
    requires d in "24/7 availability" && d !in Lower(title)
    ensures IconForFeature(title, index) == IconByIndexRaw(index, BigIconSize)
  {
    MissingCharNotContained(Lower(title), "instant confirmation", a);
    MissingCharNotContained(Lower(title), "automatic reminders", b);
    MissingCharNotContained(Lower(title), "flexible time slots", c);
    MissingCharNotContained(Lower(title), "24/7 availability", d);
  }

  // ---------------------------------------------------------------------------
  // highlighted squares of the grid pattern

  datatype Rect = Rect(x: int, y: int, width: int, height: int)

  /** The `<rect>` drawn for grid square `(sx, sy)` of a `width` by `height` pattern. */
  function SquareRect(sx: int, sy: int, width: int, height: int): (r: Rect)
    // the rectangle covers its cell and overlaps the next cell by one unit
    ensures r.x + r.width == (sx + 1) * width + 1 && r.y + r.height == (sy + 1) * height + 1
    ensures r.width == width + 1 && r.height == height + 1
  {
    Rect(sx * width, sy * height, width + 1, height + 1)
  }

  /** `squares.map(([squareX, squareY]) => <rect …/>)`. */
  function SquareRects(squares: seq<(int, int)>, width: int, height: int): (r: seq<Rect>)
    ensures |r| == |squares|
  {
    seq(|squares|, i requires 0 <= i < |squares| => SquareRect(squares[i].0, squares[i].1, width, height))
  }

  /** Each rectangle starts at the corner of its cell and reaches one unit
      past the cell's far edges; with positive cell sizes the square it
      came from is read back from its corner, so distinct squares never share
      a rectangle. */
  lemma SquarePlacement(sx: int, sy: int, width: int, height: int)
    requires width > 0 && height > 0
    ensures var r := SquareRect(sx, sy, width, height);
            && r.x + r.width == (sx + 1) * width + 1
            && r.y + r.height == (sy + 1) * height + 1
            && r.x / width == sx && r.y / height == sy
  {
    MulDiv(sx, width);
    MulDiv(sy, height);
  }

  /** Dividing a multiple of `b` by `b` gives the factor back. */
  lemma MulDiv(a: int, b: int)
    requires b > 0
    ensures (a * b) / b == a
  {
    var q := (a * b) / b;
    var r := (a * b) % b;
    assert b * (a - q) == r;
    if a - q >= 1 {
      MulAtLeast(b, a - q);
    } else if q - a >= 1 {
      MulAtLeast(b, q - a);
    }
  }

  lemma {:induction false} MulAtLeast(b: int, k: int)
    requires b > 0 && k >= 1
    ensures b * k >= b
    decreases k
  {
    if k > 1 {
      MulAtLeast(b, k - 1);
      assert b * k == b * (k - 1) + b;
    }
  }

  /** The diagonal `Grid` draws when no pattern is given. */
  const DefaultPattern: seq<(int, int)> := [(7, 1), (8, 2), (9, 3), (10, 4), (11, 5)]

  /** The rectangles of `Grid`: `pattern ?? DefaultPattern` in cells of `size ?? 20`. */
  function GridRects(pattern: Option<seq<(int, int)>>, size: Option<int>): (r: seq<Rect>)
    ensures |r| == |pattern.GetOr(DefaultPattern)|
    ensures pattern.None? ==> |r| == 5
    ensures forall i :: 0 <= i < |r| ==> r[i].width == r[i].height == size.GetOr(20) + 1
  {
    var s := size.GetOr(20);
    SquareRects(pattern.GetOr(DefaultPattern), s, s)
  }

  /** Without arguments the grid highlights five 21-unit squares stepping one
      cell right and one cell down each time, starting at (140, 20). */
  lemma DefaultGrid()
    ensures var r := GridRects(None, None);
            && |r| == 5
            && r[0] == Rect(140, 20, 21, 21)
            && forall i :: 0 <= i < 4 ==> r[i + 1] == r[i].(x := r[i].x + 20, y := r[i].y + 20)
  {
  }
}

=== FILE: JsonTree.dfy ===
/** The JSON-like value tree that the CMS editor clones and edits, and the
    path operations `handleEdit` performs on it with JavaScript's property
    semantics: index keys (numerals up to 2^32 - 2) index arrays, other keys
    name object fields. */
module JsonTree {
  import opened Strings
  import opened Wrappers

  /** A value that survives `JSON.parse(JSON.stringify(…))`. */
  datatype Json = Str(s: string) | Arr(items: seq<Json>) | Obj(fields: map<string, Json>) | Null

  /** The TypeError JavaScript throws when a property of `undefined`, `null`
      or a string is assigned or read during the walk; `key` is the key at which it happens. */
  datatype EditError = TypeError(key: string)

  /** The largest array index JavaScript allows: 2^32 - 2. */
  const MaxArrayIndex: nat := 0xFFFF_FFFE

  /** A key that `Number(key)` turns into an array index (digit strings only,
      up to `MaxArrayIndex`; a larger numeral names an ordinary property). */
  predicate IsIndexKey(k: string) {
    IsNumeral(k) && DecimalValue(k) <= MaxArrayIndex
  }

  /** `j[k]`, or None where JavaScript yields `undefined` (strings are leaves). */
  function Child(j: Json, k: string): Option<Json> {
    match j
    case Obj(f) => if k in f then Some(f[k]) else None
    case Arr(items) =>
      if IsIndexKey(k) && DecimalValue(k) < |items| then Some(items[DecimalValue(k)]) else None
    case _ => None
  }

  /** The value found by following `keys` from the root, if every step exists. */
  function Get(j: Json, keys: seq<string>): Option<Json>
    decreases |keys|
  {
    if |keys| == 0 then Some(j)
    else match Child(j, keys[0])
      case Some(c) => Get(c, keys[1..])
      case None => None
  }

  predicate IsContainer(j: Json) {
    j.Obj? || j.Arr?
  }

  /** `j[k] = v` on a container. An index at or past the end of an array grows
      it, the skipped positions becoming holes that JSON serialises as null; a
      non-index key on an array creates a property that JSON drops, so the
      tree is unchanged. Assigning on a string or null throws. */
  function Assign(j: Json, k: string, v: Json): (r: Result<Json, EditError>)
    ensures r.Ok? <==> IsContainer(j)
    ensures r.Ok? && (j.Obj? || IsIndexKey(k)) ==> Child(r.value, k) == Some(v)
    ensures r.Ok? && j.Arr? && !IsIndexKey(k) ==> r.value == j
  {
    match j
    case Obj(f) => Ok(Obj(f[k := v]))
    case Arr(items) =>
      if IsIndexKey(k) then
        var i := DecimalValue(k);
        if i < |items| then Ok(Arr(items[i := v]))
        else Ok(Arr(items + seq(i - |items|, _ => Null) + [v]))
      else Ok(j)
    case _ => Err(TypeError(k))
  }

  /** Puts `c` back as the child `k` of container `j`, where `Child(j, k)` exists. */
  function Replace(j: Json, k: string, c: Json): (r: Json)
    requires Child(j, k).Some?
    ensures Child(r, k) == Some(c)
  {
    match j
    case Obj(f) => Obj(f[k := c])
    case Arr(items) => Arr(items[DecimalValue(k) := c])
  }

  /** The walk of `handleEdit`: follow every key but the last, then assign the
      last one. Following a missing child, or reaching a string or null, throws. */
  function SetPath(j: Json, keys: seq<string>, v: Json): (r: Result<Json, EditError>)
    requires |keys| >= 1
    // only an object or an array can be edited, and the root keeps its kind
    ensures r.Ok? ==> IsContainer(j)
    ensures r.Ok? ==> (r.value.Obj? <==> j.Obj?) && (r.value.Arr? <==> j.Arr?)
    // a one-key edit is the assignment itself
    ensures |keys| == 1 ==> r == Assign(j, keys[0], v)
    decreases |keys|
  {
    if |keys| == 1 then Assign(j, keys[0], v)
    else match Child(j, keys[0])
      case None => Err(TypeError(keys[1]))
      case Some(c) =>
        match SetPath(c, keys[1..], v)
        case Err(e) => Err(e)
        case Ok(c') => Ok(Replace(j, keys[0], c'))
  }

  // ---------------------------------------------------------------------------
  // properties of SetPath

  /** The edit succeeds exactly when every key but the last leads to an
      existing object or array. */
  lemma {:induction false} SetPathSucceedsIff(j: Json, keys: seq<string>, v: Json)
    requires |keys| >= 1
    ensures SetPath(j, keys, v).Ok? <==>
              (Get(j, keys[..|keys| - 1]).Some? && IsContainer(Get(j, keys[..|keys| - 1]).value))
    decreases |keys|
  {
    if |keys| > 1 {
      assert keys[..|keys| - 1][1..] == keys[1..][..|keys[1..]| - 1];
      match Child(j, keys[0])
      case None =>
      case Some(c) => SetPathSucceedsIff(c, keys[1..], v);
    }
  }

  /** The last key lands in the tree when its parent is an object, or an array
      and the key is numeric. */
  predicate Lands(j: Json, keys: seq<string>)
    requires |keys| >= 1
  {
    var parent := Get(j, keys[..|keys| - 1]);
    parent.Some? && (parent.value.Obj? || (parent.value.Arr? && IsIndexKey(keys[|keys| - 1])))
  }

  /** Reading the edited path back yields the stored value. */
  lemma {:induction false} GetAfterSet(j: Json, keys: seq<string>, v: Json)
    requires |keys| >= 1
    requires Lands(j, keys)
    ensures SetPath(j, keys, v).Ok?
    ensures Get(SetPath(j, keys, v).value, keys) == Some(v)
    decreases |keys|
  {
    SetPathSucceedsIff(j, keys, v);
    if |keys| > 1 {
      assert keys[..|keys| - 1][1..] == keys[1..][..|keys[1..]| - 1];
      var c := Child(j, keys[0]).value;
      GetAfterSet(c, keys[1..], v);
    }
  }

  /** `p` leaves the edited path `keys` at some level: at that level the two
      name different slots of the same container (array keys compare by index). */
  ghost predicate BranchesOff(j: Json, p: seq<string>, keys: seq<string>)
    decreases |p|
  {
    && |p| > 0 && |keys| > 0
    && match j
       case Obj(f) =>
         p[0] != keys[0] || (p[0] in f && BranchesOff(f[p[0]], p[1..], keys[1..]))
       case Arr(items) =>
         && IsIndexKey(p[0]) && IsIndexKey(keys[0])
         && (DecimalValue(p[0]) != DecimalValue(keys[0])
             || (DecimalValue(p[0]) < |items| && BranchesOff(items[DecimalValue(p[0])], p[1..], keys[1..])))
       case _ => false
  }

  /** Nothing else changes: every existing path that branches off the edited
      path reads the same value before and after the edit. */
  lemma {:induction false} SetPathFrame(j: Json, keys: seq<string>, v: Json, p: seq<string>)
    requires |keys| >= 1
    requires SetPath(j, keys, v).Ok?
    requires BranchesOff(j, p, keys)
    requires Get(j, p).Some?
    ensures Get(SetPath(j, keys, v).value, p) == Get(j, p)
    decreases |keys|
  {
    var j' := SetPath(j, keys, v).value;
    var sameSlot := match j
                    case Obj(_) => p[0] == keys[0]
                    case Arr(_) => DecimalValue(p[0]) == DecimalValue(keys[0])
                    case _ => false;
    if !sameSlot {
      ChildUnchangedElsewhere(j, keys, v, p[0]);
    } else {
      SameSlotDescends(j, p, keys);
      var c := Child(j, keys[0]).value;
      assert Child(j, p[0]) == Some(c);
      var c' := SetPath(c, keys[1..], v).value;
      assert Child(j', p[0]) == Some(c');
      SetPathFrame(c, keys[1..], v, p[1..]);
    }
  }

  /** When `p` and `keys` name the same slot, `p` branches off further down. */
  lemma SameSlotDescends(j: Json, p: seq<string>, keys: seq<string>)
    requires BranchesOff(j, p, keys)
    requires j.Obj? ==> p[0] == keys[0]
    requires j.Arr? ==> DecimalValue(p[0]) == DecimalValue(keys[0])
    ensures |keys| > 1 && Child(j, p[0]).Some?
    ensures BranchesOff(Child(j, p[0]).value, p[1..], keys[1..])
  {
  }

  /** A child in another slot than the edited one is left as it was. */
  lemma ChildUnchangedElsewhere(j: Json, keys: seq<string>, v: Json, k: string)
    requires |keys| >= 1
    requires SetPath(j, keys, v).Ok?
    requires Child(j, k).Some?
    requires j.Obj? ==> k != keys[0]
    requires j.Arr? ==> !IsIndexKey(keys[0]) || DecimalValue(k) != DecimalValue(keys[0])
    ensures Child(SetPath(j, keys, v).value, k) == Child(j, k)
  {
    if j.Arr? && |keys| == 1 && IsIndexKey(keys[0]) {
      var items := j.items;
      var i := DecimalValue(keys[0]);
      var r := SetPath(j, keys, v).value;
      if i >= |items| {
        assert r.items == items + seq(i - |items|, _ => Null) + [v];
        assert r.items[DecimalValue(k)] == items[DecimalValue(k)];
      }
    }
  }

  /** Assigning at the numeral of `n` on an array: up to `MaxArrayIndex` the
      position holds the value afterwards; past it (from "4294967295" on) the
      key names a property that JSON drops, so the array is unchanged. */
  lemma ArrayIndexLimit(items: seq<Json>, n: nat, v: Json)
    ensures n <= MaxArrayIndex ==> Child(Assign(Arr(items), NatToDecimal(n), v).value, NatToDecimal(n)) == Some(v)
    ensures n > MaxArrayIndex ==> Assign(Arr(items), NatToDecimal(n), v) == Ok(Arr(items))
  {
    DecimalRoundTrip(n);
  }
}

=== FILE: Navbar.dfy ===
/** The hide-on-scroll header of examples/components/navbar.tsx.

    Every `scroll` event hands `controlNavbar` the current `window.scrollY`;
    the reading becomes the event's parameter `y`. */
module Navbar {

  /** `isVisible` and `lastScrollY`. */
  datatype NavState = NavState(visible: bool, lastScrollY: int)

  const Init := NavState(true, 0)

  /** Below this offset the header always shows. */
  const TopZone := 10
  /** A downward scroll hides the header only past this offset. */
  const HideAfter := 100

  /** `controlNavbar` with `window.scrollY == y`. */
  function OnScroll(s: NavState, y: int): (r: NavState)
    // the reading is always remembered
    ensures r.lastScrollY == y
    // scrolling up, or being near the top, shows the header
    ensures y < s.lastScrollY || y < TopZone ==> r.visible
    // the header disappears only on a downward scroll past the threshold
    ensures s.visible && !r.visible ==> y > s.lastScrollY && y > HideAfter
    // once hidden it stays hidden unless the page moved up or reached the top
    ensures !s.visible && r.visible ==> y < s.lastScrollY || y < TopZone
  {
    var visible :=
      if y < s.lastScrollY || y < TopZone then true
      else if y > s.lastScrollY && y > HideAfter then false
      else s.visible;
    NavState(visible, y)
  }

  /** The state after a sequence of scroll readings. */
  function Scrolls(s: NavState, ys: seq<int>): (r: NavState)
    ensures |ys| == 0 ==> r == s
    // the last reading is the one remembered
    ensures |ys| > 0 ==> r.lastScrollY == ys[|ys| - 1]
    decreases |ys|
  {
    if |ys| == 0 then s else Scrolls(OnScroll(s, ys[0]), ys[1..])
  }

  /** A hidden header was last seen below the hide threshold. */
  predicate NavInv(s: NavState) {
    !s.visible ==> s.lastScrollY > HideAfter
  }

  /** Hiding happens in exactly the downward scrolls past the threshold that
      start from a visible header; every other reading keeps or restores it. */
  lemma HideIff(s: NavState, y: int)
    requires s.visible
    ensures !OnScroll(s, y).visible <==> y > s.lastScrollY && y > HideAfter
  {
  }

  /** Between the top zone and the threshold a downward scroll changes nothing. */
  lemma DeadBand(s: NavState, y: int)
    requires TopZone <= y <= HideAfter && y >= s.lastScrollY
    ensures OnScroll(s, y).visible == s.visible
  {
  }

  /** A repeated reading at the same offset changes nothing. */
  lemma ScrollIdempotent(s: NavState, y: int)
    ensures OnScroll(OnScroll(s, y), y) == OnScroll(s, y)
  {
  }

  lemma OnScrollKeepsInv(s: NavState, y: int)
    requires NavInv(s)
    ensures NavInv(OnScroll(s, y))
  {
  }

  /** From the initial state, whenever the header is hidden the page sits
      below the hide threshold. */
  lemma {:induction false} ScrollsKeepInv(s: NavState, ys: seq<int>)
    requires NavInv(s)
    ensures NavInv(Scrolls(s, ys))
    decreases |ys|
  {
    if |ys| > 0 {
      OnScrollKeepsInv(s, ys[0]);
      ScrollsKeepInv(OnScroll(s, ys[0]), ys[1..]);
    }
  }

  lemma InitVisible()
    ensures Init.visible && NavInv(Init)
  {
  }

  /** The last reading alone decides `lastScrollY`, and a run whose last
      reading is near the top always ends with the header shown. */
  lemma {:induction false} ScrollsEndAt(s: NavState, ys: seq<int>)
    requires |ys| > 0
    ensures Scrolls(s, ys).lastScrollY == ys[|ys| - 1]
    ensures ys[|ys| - 1] < TopZone ==> Scrolls(s, ys).visible
    decreases |ys|
  {
    if |ys| > 1 {
      ScrollsEndAt(OnScroll(s, ys[0]), ys[1..]);
    }
  }

  /** Scrolling the page down from the top hides the header once it passes
      the threshold, and scrolling back up shows it again. */
  lemma DownThenUp()
    ensures !Scrolls(Init, [50, 120]).visible
    ensures Scrolls(Init, [50, 120, 110]).visible
    ensures Scrolls(Init, [50, 90]).visible
  {
  }
}

=== FILE: RateLimiter.dfy ===
/** The fixed-window request limiter of lib/rate-limit.ts and the rule that
    derives its client key from proxy headers.

    The module-level `ipCounters` map becomes an explicit registry value that
    each call takes and returns; `Date.now()` becomes the parameter `now`. */
module RateLimiter {
  import opened Strings
  import opened Wrappers

  /** `RateLimitOptions`: window length in milliseconds and requests allowed per window. */
  datatype Options = Options(windowMs: int, max: int)

  /** Per-client bookkeeping: requests seen in the window and when the window ends. */
  datatype Counter = Counter(count: int, expiresAt: int)

  /** The process-local `ipCounters` map; entries are never removed. */
  type Registry = map<string, Counter>

  /** What a call reports back to its caller. */
  datatype Decision = Decision(allowed: bool, remaining: int, resetAt: int)

  /** The counter of `ip` is absent or its window is over at `now` (`expiresAt <= now`). */
  predicate WindowOver(reg: Registry, ip: string, now: int) {
    ip !in reg || reg[ip].expiresAt <= now
  }

  /** `rateLimit(ip, options)` evaluated at time `now`: the new registry and the decision. */
  function RateLimit(reg: Registry, ip: string, now: int, opts: Options): (res: (Registry, Decision))
    // only the entry of `ip` may change, and it always exists afterwards
    ensures res.0.Keys == reg.Keys + {ip}
    ensures forall k :: k in reg && k != ip ==> res.0[k] == reg[k]
    // a new window starts when there is no live window
    ensures WindowOver(reg, ip, now) ==>
              && res.0[ip] == Counter(1, now + opts.windowMs)
              && res.1 == Decision(true, opts.max - 1, now + opts.windowMs)
    // a full live window rejects and leaves the registry as it was
    ensures !WindowOver(reg, ip, now) && reg[ip].count >= opts.max ==>
              && res.0 == reg
              && res.1 == Decision(false, 0, reg[ip].expiresAt)
    // otherwise the count goes up by exactly one inside the same window
    ensures !WindowOver(reg, ip, now) && reg[ip].count < opts.max ==>
              && res.0[ip] == Counter(reg[ip].count + 1, reg[ip].expiresAt)
              && res.1 == Decision(true, opts.max - res.0[ip].count, reg[ip].expiresAt)
  {
    if WindowOver(reg, ip, now) then
      (reg[ip := Counter(1, now + opts.windowMs)],
       Decision(true, opts.max - 1, now + opts.windowMs))
    else
      var existing := reg[ip];
      if existing.count >= opts.max then
        (reg, Decision(false, 0, existing.expiresAt))
      else
        var updated := existing.(count := existing.count + 1);
        (reg[ip := updated], Decision(true, opts.max - updated.count, updated.expiresAt))
  }

  /** Every stored counter lies in `1..max`. */
  ghost predicate Valid(reg: Registry, max: int) {
    forall k :: k in reg ==> 1 <= reg[k].count <= max
  }

  /** With `max >= 1` every call keeps all counters within `1..max` and reports
      a remaining quota within `0..max-1`; an allowed call never reports more
      than `max - 1` and a rejection always reports 0. */
  lemma RateLimitKeepsValid(reg: Registry, ip: string, now: int, opts: Options)
    requires opts.max >= 1
    requires Valid(reg, opts.max)
    ensures Valid(RateLimit(reg, ip, now, opts).0, opts.max)
    ensures 0 <= RateLimit(reg, ip, now, opts).1.remaining <= opts.max - 1
    ensures !RateLimit(reg, ip, now, opts).1.allowed ==> RateLimit(reg, ip, now, opts).1.remaining == 0
  {
  }

  /** A call for one client does not change what another client is told next. */
  lemma ClientsIndependent(reg: Registry, a: string, b: string, t1: int, t2: int, opts: Options)
    requires a != b
    ensures RateLimit(RateLimit(reg, a, t1, opts).0, b, t2, opts).1 == RateLimit(reg, b, t2, opts).1
  {
  }

  // ---------------------------------------------------------------------------
  // several calls from one client

  /** `n` consecutive calls from `ip`, all at time `now`. */
  function Repeat(reg: Registry, ip: string, now: int, opts: Options, n: nat): (res: (Registry, seq<Decision>))
    ensures |res.1| == n
    decreases n
  {
    if n == 0 then (reg, [])
    else
      var (r1, d1) := RateLimit(reg, ip, now, opts);
      var (r2, ds) := Repeat(r1, ip, now, opts, n - 1);
      (r2, [d1] + ds)
  }

  /** The decision for the `j`-th further call in a live window that already
      holds `c` requests and ends at `e`. */
  function LiveDecision(c: int, e: int, max: int, j: int): Decision {
    if c + j < max then Decision(true, max - (c + j + 1), e) else Decision(false, 0, e)
  }

  /** Inside a live window holding `c` requests, the next calls are allowed
      while the count is below `max` (remaining counts down) and rejected
      from then on, all reporting the same reset time. */
  lemma {:induction false} RepeatInLiveWindow(reg: Registry, ip: string, now: int, opts: Options, n: nat)
    requires ip in reg && now < reg[ip].expiresAt
    requires 1 <= reg[ip].count <= opts.max
    ensures forall j :: 0 <= j < n ==>
              Repeat(reg, ip, now, opts, n).1[j] == LiveDecision(reg[ip].count, reg[ip].expiresAt, opts.max, j)
    decreases n
  {
    if n > 0 {
      var c := reg[ip].count;
      var e := reg[ip].expiresAt;
      var r1 := RateLimit(reg, ip, now, opts).0;
      var ds := Repeat(reg, ip, now, opts, n).1;
      var rest := Repeat(r1, ip, now, opts, n - 1).1;
      assert ds == [RateLimit(reg, ip, now, opts).1] + rest;
      RepeatInLiveWindow(r1, ip, now, opts, n - 1);
      var c1 := r1[ip].count;
      assert c1 == if c < opts.max then c + 1 else c;
      assert r1[ip].expiresAt == e;
      forall j | 1 <= j < n
        ensures ds[j] == LiveDecision(c, e, opts.max, j)
      {
        assert ds[j] == rest[j - 1];
        assert rest[j - 1] == LiveDecision(c1, e, opts.max, j - 1);
      }
    }
  }

  /** A client with no live window, calling `n` times at one instant with a
      positive window: calls 1..max are allowed with remaining `max-1` down to
      0, and every later call is rejected, all with reset time `now + windowMs`. */
  lemma FreshClientBurst(reg: Registry, ip: string, now: int, opts: Options, n: nat)
    requires WindowOver(reg, ip, now)
    requires opts.windowMs > 0 && opts.max >= 1
    ensures forall j :: 0 <= j < n ==>
              Repeat(reg, ip, now, opts, n).1[j] ==
                if j < opts.max then Decision(true, opts.max - 1 - j, now + opts.windowMs)
                else Decision(false, 0, now + opts.windowMs)
  {
    if n > 0 {
      var r1 := RateLimit(reg, ip, now, opts).0;
      var ds := Repeat(reg, ip, now, opts, n).1;
      var rest := Repeat(r1, ip, now, opts, n - 1).1;
      assert ds == [RateLimit(reg, ip, now, opts).1] + rest;
      RepeatInLiveWindow(r1, ip, now, opts, n - 1);
      assert r1[ip] == Counter(1, now + opts.windowMs);
      forall j | 1 <= j < n
        ensures ds[j] == if j < opts.max then Decision(true, opts.max - 1 - j, now + opts.windowMs)
                         else Decision(false, 0, now + opts.windowMs)
      {
        assert ds[j] == rest[j - 1];
        assert rest[j - 1] == LiveDecision(1, now + opts.windowMs, opts.max, j - 1);
      }
    }
  }

  /** Once the reset time reported for a client has passed, its next call
      starts a fresh window: allowed, `max - 1` remaining, new reset time. */
  lemma CallAfterResetStartsNewWindow(reg: Registry, ip: string, now: int, later: int, opts: Options)
    requires later >= RateLimit(reg, ip, now, opts).1.resetAt
    ensures var reg1 := RateLimit(reg, ip, now, opts).0;
            RateLimit(reg1, ip, later, opts).1 == Decision(true, opts.max - 1, later + opts.windowMs)
  {
  }

  /** An example policy of 600000 ms and 5 requests: calls 1-5 report
      4,3,2,1,0 remaining, call 6 is rejected, and a call 600001 ms later is
      allowed again with 4 remaining. */
  lemma BookingPolicyScenario(reg: Registry, t: int)
    requires "1.2.3.4" !in reg
    ensures var opts := Options(600000, 5);
            var (reg6, ds) := Repeat(reg, "1.2.3.4", t, opts, 6);
            && ds == [Decision(true, 4, t + 600000), Decision(true, 3, t + 600000),
                      Decision(true, 2, t + 600000), Decision(true, 1, t + 600000),
                      Decision(true, 0, t + 600000), Decision(false, 0, t + 600000)]
            && RateLimit(reg6, "1.2.3.4", t + 600001, opts).1 == Decision(true, 4, t + 1200001)
  {
    var opts := Options(600000, 5);
    FreshClientBurst(reg, "1.2.3.4", t, opts, 6);
    var ds := Repeat(reg, "1.2.3.4", t, opts, 6).1;
    assert ds[5].resetAt == t + 600000;
  }

  // ---------------------------------------------------------------------------
  // client key

  /** Request headers, by lower-case name (`Headers.get` is case-insensitive). */
  type Headers = map<string, string>

  const UnknownClient: string := "unknown"

  /** `headers.get(name)`: the value, or null when absent. */
  function HeaderValue(h: Headers, name: string): Option<string> {
    if name in h then Some(h[name]) else None
  }

  /** The header the key is read from: `x-forwarded-for` when present and
      non-empty, otherwise `x-real-ip` (JavaScript `||` skips null and ""). */
  function ForwardedHeader(h: Headers): (r: Option<string>)
    ensures "x-forwarded-for" in h && h["x-forwarded-for"] != "" ==> r == Some(h["x-forwarded-for"])
    ensures !("x-forwarded-for" in h && h["x-forwarded-for"] != "") ==>
              (r.Some? <==> "x-real-ip" in h) && (r.Some? ==> r.value == h["x-real-ip"])
  {
    match HeaderValue(h, "x-forwarded-for")
    case Some(v) => if v != "" then Some(v) else HeaderValue(h, "x-real-ip")
    case None => HeaderValue(h, "x-real-ip")
  }

  /** `getClientIp(headers)`. */
  function GetClientIp(h: Headers): (ip: string)
    ensures |ip| > 0
    ensures ip != UnknownClient ==>
              && ',' !in ip
              && !IsWhitespace(ip[0]) && !IsWhitespace(ip[|ip| - 1])
  {
    match ForwardedHeader(h)
    case Some(xff) =>
      if xff != "" then
        var ip := Trim(Split(xff, ',')[0]);
        if ip != "" then ip else UnknownClient
      else UnknownClient
    case None => UnknownClient
  }

  /** The key is the chosen header's text up to its first comma, trimmed;
      when that is blank, or no header is usable, it is "unknown". A blank first
      field of `x-forwarded-for` does not fall back to `x-real-ip`. */
  lemma GetClientIpIsFirstField(h: Headers)
    ensures var first := match ForwardedHeader(h)
                         case Some(v) => Trim(v[..IndexOf(v, ',')])
                         case None => "";
            GetClientIp(h) == if first != "" then first else UnknownClient
  {
    match ForwardedHeader(h)
    case Some(v) =>
      SplitFirstField(v, ',');
    case None =>
  }

  /** `x-forwarded-for: 9.9.9.9, 10.0.0.1` gives "9.9.9.9". */
  lemma GetClientIpForwardedExample()
    ensures GetClientIp(map["x-forwarded-for" := "9.9.9.9, 10.0.0.1"]) == "9.9.9.9"
  {
    var v := "9.9.9.9, 10.0.0.1";
    var ip := "9.9.9.9";
    FirstFieldExample(v, ip);
    var h := map["x-forwarded-for" := v];
    assert HeaderValue(h, "x-forwarded-for") == Some(v);
    assert ForwardedHeader(h) == Some(v);
    GetClientIpIsFirstField(h);
  }

  lemma FirstFieldExample(v: string, ip: string)
    requires v == "9.9.9.9, 10.0.0.1" && ip == "9.9.9.9"
    ensures Trim(v[..IndexOf(v, ',')]) == ip
  {
    assert v == ip + [','] + " 10.0.0.1";
    IndexOfAfterField(ip, ',', " 10.0.0.1");
    assert v[..IndexOf(v, ',')] == ip;
    TrimKeepsInnerText(ip);
  }

  /** With no proxy header every client shares the key "unknown". */
  lemma GetClientIpNoHeaderExample()
    ensures GetClientIp(map[]) == UnknownClient
  {
  }
}

=== FILE: Reveal.dfy ===
/** The reveal-on-scroll wrapper `InView` of components/ui/in-view.tsx.

    The IntersectionObserver callback and the `setTimeout` it may schedule
    become events; the timer's delay is not modelled, only the fact that a
    scheduled callback runs later, after any events in between. */
module Reveal {

  /** The props that shape the transitions: `once` (default true) and `delayMs` (default 0). */
  datatype RevealProps = RevealProps(once: bool, delayMs: int)

  const DefaultProps := RevealProps(true, 0)

  /** `hasEntered`, `isInView`, whether the observer still watches the node,
      and how many scheduled reveal callbacks have not run yet. */
  datatype RevealState = RevealState(hasEntered: bool, isInView: bool, observing: bool, pending: nat)

  const Init := RevealState(false, false, true, 0)

  datatype RevealEvent =
    | Entry(isIntersecting: bool)  // the observer reports the node's intersection
    | TimerFires                   // the oldest scheduled reveal callback runs

  /** Both flags set, as the immediate branch and the timer callback do. */
  function Shown(s: RevealState): RevealState {
    s.(hasEntered := true, isInView := true)
  }

  function Step(p: RevealProps, s: RevealState, e: RevealEvent): (r: RevealState)
    // `hasEntered` is never cleared
    ensures s.hasEntered ==> r.hasEntered
    // with `once`, nothing ever clears `isInView`
    ensures p.once && s.isInView ==> r.isInView
    // an unobserved node ignores the observer
    ensures !s.observing && e.Entry? ==> r == s
    // the observer is never re-attached
    ensures !s.observing ==> !r.observing
    // a scheduled reveal that runs sets both flags and is used up
    ensures e.TimerFires? && s.pending > 0 ==> r.hasEntered && r.isInView && r.pending == s.pending - 1
    // with nothing scheduled, a timer event changes nothing
    ensures e.TimerFires? && s.pending == 0 ==> r == s
  {
    match e
    case Entry(true) =>
      if !s.observing then s
      else
        var t := if p.delayMs > 0 then s.(pending := s.pending + 1) else Shown(s);
        if p.once then t.(observing := false) else t
    case Entry(false) =>
      if s.observing && !p.once then s.(isInView := false) else s
    case TimerFires =>
      if s.pending == 0 then s else Shown(s).(pending := s.pending - 1)
  }

  /** The state after the events `es`, in order. */
  function Run(p: RevealProps, s: RevealState, es: seq<RevealEvent>): (r: RevealState)
    // over any run `hasEntered` is never cleared and the observer never returns
    ensures s.hasEntered ==> r.hasEntered
    ensures !s.observing ==> !r.observing
    decreases |es|
  {
    if |es| == 0 then s else Run(p, Step(p, s, es[0]), es[1..])
  }

  /** Which of the two class lists the element carries. */
  datatype Look = InitialLook | InViewLook

  /** `hasEntered ? (isInView ? inViewClassName : initialClassName) : initialClassName`. */
  function LookOf(s: RevealState): (l: Look)
    ensures l == InViewLook <==> s.hasEntered && s.isInView
  {
    if s.hasEntered then (if s.isInView then InViewLook else InitialLook) else InitialLook
  }

  /** The states reachable from `Init`: being in view implies having entered;
      timers exist only with a positive delay; with `once`, an observed node
      has never intersected and at most one timer is ever scheduled. */
  predicate RevealInv(p: RevealProps, s: RevealState) {
    && (s.isInView ==> s.hasEntered)
    && (p.delayMs <= 0 ==> s.pending == 0)
    && (p.once ==> s.pending <= 1 && (s.observing ==> !s.hasEntered && s.pending == 0))
  }

  lemma InitInv(p: RevealProps)
    ensures RevealInv(p, Init) && LookOf(Init) == InitialLook
  {
  }

  lemma StepKeepsInv(p: RevealProps, s: RevealState, e: RevealEvent)
    requires RevealInv(p, s)
    ensures RevealInv(p, Step(p, s, e))
  {
  }

  lemma {:induction false} RunKeepsInv(p: RevealProps, s: RevealState, es: seq<RevealEvent>)
    requires RevealInv(p, s)
    ensures RevealInv(p, Run(p, s, es))
    decreases |es|
  {
    if |es| > 0 {
      StepKeepsInv(p, s, es[0]);
      RunKeepsInv(p, Step(p, s, es[0]), es[1..]);
    }
  }

  /** In a reachable state the class depends on `isInView` alone. */
  lemma LookIsInView(p: RevealProps, s: RevealState)
    requires RevealInv(p, s)
    ensures LookOf(s) == InViewLook <==> s.isInView
  {
  }

  /** An intersection shows the node at once when there is no delay; with a
      delay it only schedules the reveal. */
  lemma IntersectionReveals(p: RevealProps, s: RevealState)
    requires s.observing
    ensures p.delayMs <= 0 ==> LookOf(Step(p, s, Entry(true))) == InViewLook
    ensures p.delayMs > 0 ==> Step(p, s, Entry(true)).pending == s.pending + 1
    ensures p.delayMs > 0 ==> Step(p, s, Entry(true)).isInView == s.isInView
  {
  }

  /** Without `once` the node follows the observer: leaving the viewport
      hides it again, while `once` keeps it. */
  lemma LeavingHidesOnlyWithoutOnce(p: RevealProps, s: RevealState)
    requires s.observing
    ensures !p.once ==> !Step(p, s, Entry(false)).isInView
    ensures p.once ==> Step(p, s, Entry(false)) == s
  {
  }

  /** Both flags only ever grow under `once`: after any events, a node that
      was in view is still in view. */
  lemma {:induction false} OncePermanent(p: RevealProps, s: RevealState, es: seq<RevealEvent>)
    requires p.once
    ensures s.hasEntered ==> Run(p, s, es).hasEntered
    ensures s.isInView ==> Run(p, s, es).isInView
    decreases |es|
  {
    if |es| > 0 {
      OncePermanent(p, Step(p, s, es[0]), es[1..]);
    }
  }

  /** With the default props the first intersection reveals the node for good,
      whatever the observer reports later. */
  lemma DefaultRevealIsFinal(es: seq<RevealEvent>)
    ensures LookOf(Run(DefaultProps, Init, [Entry(true)] + es)) == InViewLook
  {
    var s := Step(DefaultProps, Init, Entry(true));
    assert s.isInView && !s.observing;
    assert ([Entry(true)] + es)[1..] == es;
    OncePermanent(DefaultProps, s, es);
  }

  /** With a delay and without `once`, a reveal scheduled before the node left
      the viewport still runs afterwards and shows the node out of view. */
  lemma StaleTimerShows(delay: int)
    requires delay > 0
    ensures var p := RevealProps(false, delay);
            LookOf(Run(p, Init, [Entry(true), Entry(false), TimerFires])) == InViewLook
  {
  }
}

=== FILE: Strings.dfy ===
/** The JavaScript string primitives the modelled code relies on: `trim`,
    `split` on one character, `padStart`, `toString` of integers, `Number` of
    digit strings, `toLowerCase` (ASCII), `includes` and `<` on strings.
    Strings are sequences of characters; the UTF-16 code-unit view of
    JavaScript is not modelled. */
module Strings {

  /** The characters matched by the regular expression `\s` and removed by
      `String.prototype.trim` (WhiteSpace and LineTerminator of ECMAScript). */
  predicate IsWhitespace(c: char) {
    || c == ' ' || c == '\t' || c == '\n' || c == '\U{000B}' || c == '\U{000C}' || c == '\r'
    || c == '\U{00A0}' || c == '\U{1680}' || ('\U{2000}' <= c <= '\U{200A}')
    || c == '\U{2028}' || c == '\U{2029}' || c == '\U{202F}' || c == '\U{205F}'
    || c == '\U{3000}' || c == '\U{FEFF}'
  }

  predicate IsDigit(c: char) {
    '0' <= c <= '9'
  }

  predicate IsDigits(s: string) {
    forall i :: 0 <= i < |s| ==> IsDigit(s[i])
  }

  /** A non-empty run of decimal digits: what `Number` reads as a whole number here. */
  predicate IsNumeral(s: string) {
    |s| > 0 && IsDigits(s)
  }

  // ---------------------------------------------------------------------------
  // trim

  /** `trimStart`: drops the longest whitespace prefix. */
  function TrimStart(s: string): (r: string)
    ensures |r| <= |s| && r == s[|s| - |r|..]
    ensures |r| > 0 ==> !IsWhitespace(r[0])
    ensures forall i :: 0 <= i < |s| - |r| ==> IsWhitespace(s[i])
  {
    if |s| > 0 && IsWhitespace(s[0]) then TrimStart(s[1..]) else s
  }

  /** `trimEnd`: drops the longest whitespace suffix. */
  function TrimEnd(s: string): (r: string)
    ensures |r| <= |s| && r == s[..|r|]
    ensures |r| > 0 ==> !IsWhitespace(r[|r| - 1])
    ensures forall i :: |r| <= i < |s| ==> IsWhitespace(s[i])
  {
    if |s| > 0 && IsWhitespace(s[|s| - 1]) then TrimEnd(s[..|s| - 1]) else s
  }

  /** `trim`: the result is the slice of `s` left once whitespace is removed
      from both ends; it neither starts nor ends with whitespace. */
  function Trim(s: string): (r: string)
    ensures |r| > 0 ==> !IsWhitespace(r[0]) && !IsWhitespace(r[|r| - 1])
    ensures var i := |s| - |TrimStart(s)|;
            && i + |r| <= |s| && r == s[i..i + |r|]
            && (forall k :: 0 <= k < i ==> IsWhitespace(s[k]))
            && (forall k :: i + |r| <= k < |s| ==> IsWhitespace(s[k]))
  {
    var t := TrimStart(s);
    var r := TrimEnd(t);
    TrimEndInSuffix(s, t, r);
    r
  }

  /** Trimming the end of the suffix `t` of `s` keeps a slice of `s` and
      drops only characters of `s` that are whitespace. */
  lemma TrimEndInSuffix(s: string, t: string, r: string)
    requires |t| <= |s| && t == s[|s| - |t|..]
    requires |r| <= |t| && r == t[..|r|]
    requires forall j :: |r| <= j < |t| ==> IsWhitespace(t[j])
    ensures var i := |s| - |t|; i + |r| <= |s| && r == s[i..i + |r|]
    ensures var i := |s| - |t|; forall k :: i + |r| <= k < |s| ==> IsWhitespace(s[k])
  {
    var i := |s| - |t|;
    forall k | i + |r| <= k < |s|
      ensures IsWhitespace(s[k])
    {
      assert s[k] == t[k - i];
    }
  }

  /** Text that neither starts nor ends with whitespace is left as it is by `trim`. */
  lemma TrimKeepsInnerText(s: string)
    requires |s| > 0 && !IsWhitespace(s[0]) && !IsWhitespace(s[|s| - 1])
    ensures Trim(s) == s
  {
    assert TrimStart(s) == s;
  }

  /** A string made only of whitespace trims to the empty string, and only such a string does. */
  lemma TrimEmptyIffBlank(s: string)
    ensures Trim(s) == "" <==> forall i :: 0 <= i < |s| ==> IsWhitespace(s[i])
  {
    var r := Trim(s);
    var i := |s| - |TrimStart(s)|;
    if r != "" {
      assert r[0] == s[i];
    }
  }

  // ---------------------------------------------------------------------------
  // split / join on one separator character

  /** Position of the first `c` in `s`, or `|s|` when there is none. */
  function IndexOf(s: string, c: char): (i: nat)
    ensures i <= |s|
    ensures i < |s| ==> s[i] == c
    ensures forall j :: 0 <= j < i ==> s[j] != c
  {
    if |s| == 0 then 0
    else if s[0] == c then 0
    else 1 + IndexOf(s[1..], c)
  }

  /** `s.split(sep)` for a one-character separator: the maximal
      separator-free fields, empty ones included; never an empty list. */
  function Split(s: string, sep: char): (parts: seq<string>)
    ensures |parts| >= 1
    ensures forall i :: 0 <= i < |parts| ==> sep !in parts[i]
    decreases |s|
  {
    var i := IndexOf(s, sep);
    if i == |s| then [s] else [s[..i]] + Split(s[i + 1..], sep)
  }

  /** The first field of a split is the text before the first separator. */
  lemma SplitFirstField(s: string, sep: char)
    ensures Split(s, sep)[0] == s[..IndexOf(s, sep)]
  {
  }

  /** `parts.join(sep)`. */
  function Join(parts: seq<string>, sep: char): string
  {
    if |parts| == 0 then ""
    else if |parts| == 1 then parts[0]
    else parts[0] + [sep] + Join(parts[1..], sep)
  }

  /** Splitting then joining gives back the original string. */
  lemma {:induction false} JoinSplit(s: string, sep: char)
    ensures Join(Split(s, sep), sep) == s
    decreases |s|
  {
    var i := IndexOf(s, sep);
    if i < |s| {
      var rest := s[i + 1..];
      JoinSplit(rest, sep);
      SplitCons(s, sep);
      JoinCons(s[..i], Split(rest, sep), sep);
      Around(s, i);
    }
  }

  /** Unfolding a split at its first separator. */
  lemma SplitCons(s: string, sep: char)
    requires IndexOf(s, sep) < |s|
    ensures Split(s, sep) == [s[..IndexOf(s, sep)]] + Split(s[IndexOf(s, sep) + 1..], sep)
  {
  }

  /** A string is the text before position `i`, the character there and the text after. */
  lemma Around(s: string, i: nat)
    requires i < |s|
    ensures s == s[..i] + [s[i]] + s[i + 1..]
  {
  }

  lemma JoinCons(head: string, tail: seq<string>, sep: char)
    requires |tail| >= 1
    ensures Join([head] + tail, sep) == head + [sep] + Join(tail, sep)
  {
    assert ([head] + tail)[1..] == tail;
  }

  /** The first separator after a separator-free field is the one that ends it. */
  lemma {:induction false} IndexOfAfterField(field: string, sep: char, rest: string)
    requires sep !in field
    ensures IndexOf(field + [sep] + rest, sep) == |field|
  {
    if |field| > 0 {
      assert (field + [sep] + rest)[1..] == field[1..] + [sep] + rest;
      IndexOfAfterField(field[1..], sep, rest);
    }
  }

  /** Joining separator-free fields then splitting gives back the fields. */
  lemma {:induction false} SplitJoin(parts: seq<string>, sep: char)
    requires |parts| >= 1
    requires forall i :: 0 <= i < |parts| ==> sep !in parts[i]
    ensures Split(Join(parts, sep), sep) == parts
  {
    if |parts| == 1 {
      assert IndexOf(parts[0], sep) == |parts[0]|;
    } else {
      var s := Join(parts, sep);
      var tail := Join(parts[1..], sep);
      assert parts == [parts[0]] + parts[1..];
      JoinCons(parts[0], parts[1..], sep);
      assert sep !in parts[0];
      IndexOfAfterField(parts[0], sep, tail);
      assert s[..|parts[0]|] == parts[0];
      assert s[|parts[0]| + 1..] == tail;
      SplitJoin(parts[1..], sep);
      assert parts == [parts[0]] + parts[1..];
    }
  }

  // ---------------------------------------------------------------------------
  // decimal digits

  function DigitChar(d: nat): (c: char)
    requires d < 10
    ensures IsDigit(c)
  {
    ('0' as int + d) as char
  }

  function DigitValue(c: char): (d: nat)
    requires IsDigit(c)
    ensures d < 10 && DigitChar(d) == c
  {
    c as int - '0' as int
  }

  /** `n.toString()` for a non-negative integer: decimal digits, no leading zero. */
  function NatToDecimal(n: nat): (s: string)
    ensures |s| >= 1 && IsDigits(s)
    ensures |s| > 1 ==> s[0] != '0'
    ensures n < 10 <==> |s| == 1
    decreases n
  {
    if n < 10 then [DigitChar(n)] else NatToDecimal(n / 10) + [DigitChar(n % 10)]
  }

  /** `Number(s)` for a string of decimal digits (leading zeros allowed). */
  function DecimalValue(s: string): nat
    requires IsDigits(s)
  {
    if |s| == 0 then 0 else 10 * DecimalValue(s[..|s| - 1]) + DigitValue(s[|s| - 1])
  }

  /** Printing then reading a number gives it back. */
  lemma {:induction false} DecimalRoundTrip(n: nat)
    ensures DecimalValue(NatToDecimal(n)) == n
    decreases n
  {
    if n >= 10 {
      var s := NatToDecimal(n);
      DecimalRoundTrip(n / 10);
      assert s[..|s| - 1] == NatToDecimal(n / 10);
    }
  }

  /** Reading a digit back gives the value it was printed from. */
  lemma DigitCharValue(d: nat)
    requires d < 10
    ensures DigitValue(DigitChar(d)) == d
  {
  }

  /** Digits compare as characters in the order of their values. */
  lemma DigitCharOrder(a: nat, b: nat)
    requires a < 10 && b < 10
    ensures DigitChar(a) < DigitChar(b) <==> a < b
    ensures DigitChar(a) == DigitChar(b) <==> a == b
  {
  }

  /** Two digits read back as the number below 100 they were printed from. */
  lemma TwoDigitsValue(n: nat)
    requires n < 100
    ensures IsDigits([DigitChar(n / 10), DigitChar(n % 10)])
    ensures DecimalValue([DigitChar(n / 10), DigitChar(n % 10)]) == n
  {
    var s := [DigitChar(n / 10), DigitChar(n % 10)];
    DigitCharValue(n / 10);
    DigitCharValue(n % 10);
    assert s[..1] == [DigitChar(n / 10)];
    assert s[..1][..0] == [];
    assert DecimalValue(s[..1]) == n / 10;
    assert DecimalValue(s) == 10 * (n / 10) + n % 10;
  }

  /** `String(i)` for an integer. */
  function IntToDecimal(i: int): string
  {
    if i < 0 then "-" + NatToDecimal(-i) else NatToDecimal(i)
  }

  /** `s.padStart(width, fill)` with a one-character fill. */
  function PadStart(s: string, width: nat, fill: char): (r: string)
    ensures |r| == if |s| >= width then |s| else width
    ensures forall i :: 0 <= i < |s| ==> r[|r| - |s| + i] == s[i]
    ensures forall i :: 0 <= i < |r| - |s| ==> r[i] == fill
  {
    if |s| >= width then s else seq(width - |s|, _ => fill) + s
  }

  /** A number below 100 printed with `padStart(2, "0")` is its two digits. */
  lemma TwoDigits(n: nat)
    requires n < 100
    ensures PadStart(NatToDecimal(n), 2, '0') == [DigitChar(n / 10), DigitChar(n % 10)]
  {
    if n >= 10 {
      assert NatToDecimal(n) == NatToDecimal(n / 10) + [DigitChar(n % 10)];
    }
  }

  // ---------------------------------------------------------------------------
  // case and substring search

  /** `toLowerCase` restricted to ASCII letters. */
  function LowerChar(c: char): (r: char)
    ensures 'A' <= c <= 'Z' ==> r != c && 'a' <= r <= 'z'
    ensures !('A' <= c <= 'Z') ==> r == c
  {
    if 'A' <= c <= 'Z' then (c as int + 32) as char else c
  }

  function Lower(s: string): (r: string)
    ensures |r| == |s|
    ensures forall i :: 0 <= i < |s| ==> r[i] == LowerChar(s[i])
  {
    if |s| == 0 then "" else [LowerChar(s[0])] + Lower(s[1..])
  }

  predicate StartsWith(s: string, prefix: string) {
    |prefix| <= |s| && s[..|prefix|] == prefix
  }

  /** `s.includes(t)`. */
  predicate Contains(s: string, t: string)
    decreases |s|
  {
    StartsWith(s, t) || (|s| > 0 && Contains(s[1..], t))
  }

  /** `a < b` on strings: the first differing character decides; a proper prefix is smaller. */
  predicate LexLess(a: string, b: string)
    decreases |a|
  {
    |b| > 0 && (|a| == 0 || a[0] < b[0] || (a[0] == b[0] && LexLess(a[1..], b[1..])))
  }
}

=== FILE: Wrappers.dfy ===
/** Optional values and results with an error, used wherever the JavaScript
    code yields `undefined`/`null`/`NaN` or throws. */
module Wrappers {

  datatype Option<+T> = None | Some(value: T) {

    predicate IsFailure() {
      None?
    }

    function PropagateFailure<U>(): Option<U>
      requires None?
    {
      None
    }

    function Extract(): T
      requires Some?
    {
      value
    }

    /** Returns the wrapped value, or `default` for None. */
    function GetOr(default: T): T {
      match this
      case Some(v) => v
      case None => default
    }
  }

  datatype Result<+T, +E> = Ok(value: T) | Err(error: E)
}
